=== FILE: README.md ===
# Payment system: a Dafny model of its validation and payment paths

The payment system is a small full-stack application. A React form lets a
customer pay by M-Pesa, Airtel Money or card. An Express server validates
each request against a Joi schema. It then hands the request to a provider
adapter. This project models the parts of that system where the decisions
are made:

- the card checks on both sides:
  - the Luhn test, in its two copies;
  - the brand patterns;
  - the expiry and CVC rules;
  - the server's simulated charge and refund records;
- the client card service's `validateCard` and `processPayment`;
- the server's request schemas and the `validateRequest` middleware;
- the route table and the 404 handler;
- the client M-Pesa and Airtel services:
  - `formatPhoneNumber`;
  - the requests they send;
  - how they read the replies;
- the M-Pesa STK push and query bodies:
  - the digits-only timestamp;
  - the base64 password, with UTF-8 and base64 modelled so that the password
    can be shown to decode back to its parts;
- `handleSubmit` of the payment form, including the status polling it starts
  (every 5000 ms, stopped after 120000 ms).

Everything that the code draws from outside is a parameter:

- the current date;
- the ISO time string;
- the random id suffix;
- the reply an HTTP request gets;
- the answer a route's controller would give.

Modules, one per source concern:

| module | source |
|---|---|
| `Common` | shared `Option`, `Outcome`, `Reply`, `Today`, and `ErrorMessage`: the server's error string or a fallback |
| `Text` | digits, `trim`, `split`, `parseInt`, character filters |
| `Luhn` | the Luhn loop of `Backend/api/card.js` and `paymentMethods.js` |
| `CardPatterns` | the brand regular expressions, the `MM/YY` shape, and the `CardDetails` form fields |
| `CardService` | `Frontend/src/services/card.js` |
| `CardApi` | `Backend/api/card.js` |
| `PaymentValidation` | `Backend/validation/paymentValidation.js`, and the parsed request body `Json` with JavaScript property reads on it |
| `Server` | `Backend/routes/paymentRoutes.js`, `Backend/server.js` |
| `Phone` | `formatPhoneNumber` of the two mobile services |
| `MobileServices` | `Frontend/src/services/mpesa.js`, `airtel.js` |
| `Utf8`, `Base64` | `Buffer.from(...).toString('base64')` |
| `MpesaApi` | `Backend/api/mpesa.js` |
| `Poller` | the `setInterval` / `setTimeout` pair |
| `PaymentForm` | `Frontend/src/components/PaymentForm.jsx` |
| `Consistency` | how the client's output meets the server's checks |

## Model

| member | source | states |
|---|---|---|
| Common.ErrorMessage | Frontend/src/services/mpesa.js:22 | A failed request reports the server's `error` string when the reply carries a non-empty one, and the fixed fallback message otherwise |
| Text.ParseIntOfDigits | Backend/api/card.js:47 | `parseInt` of a non-empty digit string is the decimal number it writes |
| Text.SplitAtFirst | Backend/api/card.js:47 | `split` cuts at the first separator: the part before it comes first and the rest is split again |
| Luhn.Contribution | Frontend/src/services/card.js:80-85 | A doubled digit minus 9 when above 9 is the sum of the decimal digits of the double; an undoubled digit counts as itself |
| Luhn.LoopDigitValue | Backend/api/card.js:16-23 | One loop step contributes the digit's Luhn weight for a digit and NaN for any other character |
| Luhn.LoopComputesWeightedSum | Backend/api/card.js:14-27 | Loop invariant: the running sum is the positional reference sum of the characters already scanned, or NaN once a non-digit was met |
| Luhn.RawValidate | Backend/api/card.js:9-30 | The loop accepts a string exactly when it is all digits and its Luhn weighted sum is a multiple of 10 |
| Luhn.RawValidateEdgeCases | Frontend/src/services/paymentMethods.js:81-102 | The empty string passes the check, and a string containing any non-digit fails it |
| Luhn.ContributionInjective | Backend/api/card.js:18-23 | Distinct digits at the same position contribute distinct weights |
| Luhn.SingleDigitErrorDetected | Backend/api/card.js:9-30 | Replacing any one digit of a valid number by a different digit makes it invalid |
| Luhn.FourTwosValid | Frontend/src/services/card.js:73-91 | Every repetition of `42` passes the Luhn test |
| Luhn.Examples | Frontend/src/services/card.js:73-91 | The test card 4242424242424242 passes and 4242424242424241 fails |
| CardPatterns.PatternsDisjoint | Frontend/src/services/card.js:128-133 | No string matches two of the Visa, Mastercard, Amex and Discover patterns |
| CardPatterns.ClassifyAll | Frontend/src/services/card.js:135-141 | The four-brand classifier names a brand exactly when that brand's pattern matches |
| CardPatterns.ClassifyBasic | Backend/api/card.js:32-44 | The two-brand classifier answers only Visa, Mastercard or unknown, and each brand exactly when its pattern matches |
| CardPatterns.ExpiryText | Frontend/src/services/card.js:96 | The `MM/YY` rendering of two numbers below 100 has the expiry shape and reads back as those two numbers |
| CardService.IsValidCardNumber | Frontend/src/services/card.js:63-92 | A number passes exactly when, without spaces and dashes, it is 16 digits that pass the Luhn test |
| CardService.SeparatorInsertionIgnored | Frontend/src/services/card.js:65 | Inserting a space or dash anywhere never changes the verdict |
| CardService.CleanedNumberSameVerdict | Frontend/src/services/card.js:65 | Cleaning a number first gives the same verdict as checking it as typed |
| CardService.IsValidExpiryDate | Frontend/src/services/card.js:94-98 | Only `DD/DD` strings can pass |
| CardService.ExpiryRule | Frontend/src/services/card.js:100-116 | An `MM/YY` date passes exactly when the month is 1 to 12 and the date is not before the current month of the current two-digit year |
| CardService.ExpiryBoundaries | Frontend/src/services/card.js:106-113 | The current month passes, the previous month fails, and month 13 always fails |
| CardService.ValidateCard | Frontend/src/services/card.js:8-35 | The card is valid iff there are no errors iff all four fields pass. Each failing field has exactly one error, with its message. Errors are in the order number, expiry, cvc, name, so the first error is the earliest failing field |
| CardService.CollectErrorsMembers | Frontend/src/services/card.js:12-29 | A field has an error exactly when it is checked and fails |
| CardService.CollectErrorsOrdered | Frontend/src/services/card.js:31-34 | Errors keep the order in which the fields are checked |
| CardService.GetCardType | Frontend/src/services/card.js:123-142 | The brand of the cleaned number is named exactly when its pattern matches |
| CardService.Settle | Frontend/src/services/card.js:53-59 | A reply with a non-null body succeeds with the body's `transaction`. A `null` body fails with 'Card payment failed', because reading `transaction` off it throws. An HTTP error shows the server's message or 'Card payment failed' |
| CardService.ProcessPaymentAsWritten | Frontend/src/services/card.js:37-60 | Invalid details fail with 'Card payment failed' and nothing is posted. Valid details post the number with only whitespace removed. The payment succeeds exactly when the post gets a non-null reply body, and then carries that body's `transaction`. A `null` body or an HTTP error fails with the message above |
| CardService.ProcessPayment | Frontend/src/services/card.js:45-51 | The corrected post carries the number without spaces and dashes, which is 16 digits passing the Luhn test. It succeeds on the same replies as the code as written |
| CardService.DashedNumberValid | Frontend/src/services/card.js:65 | A 16-digit Luhn-valid number with a dash inserted anywhere still passes validation |
| CardService.DashedNumberPostedWithDashes | Frontend/src/services/card.js:48 | A validated number containing a dash is posted with the dash in it, so the posted number is not all digits |
| CardService.DashedFormExists | Frontend/src/services/card.js:8-35 | Some card form with a dashed number passes every client check |
| CardApi.NoSlashNoYear | Backend/api/card.js:47 | Without a '/', the destructured year is `undefined` |
| CardApi.ValidateExpiryDate | Backend/api/card.js:46-61 | The date is accepted exactly when both parts parse, the month is 1 to 12, the year is not 0, and the date is not before the current month of the two-digit current year |
| CardApi.ParseExpiryOfText | Backend/api/card.js:47 | An `MM/YY` string parses into its month and year |
| CardApi.ValidateExpiryOfText | Backend/api/card.js:52-58 | On `MM/YY` text, the check is the calendar rule, with year 00 always refused |
| CardApi.YearZeroRejected | Backend/api/card.js:52 | Year 00 is refused in every month, because 0 is falsy |
| CardApi.TakeLast | Backend/api/card.js:96 | `slice(-4)` is the suffix of length min(4, length) |
| CardApi.ProcessPayment | Backend/api/card.js:67-105 | A payment is approved exactly when the number passes Luhn, is Visa or Mastercard, the expiry passes and the CVC is 3 or 4 digits. Otherwise the first failing check's message is thrown, prefixed with 'Card payment failed: ' |
| CardApi.ApprovedPayment | Backend/api/card.js:89-101 | An approved record is a successful USD charge of the amount received. The card type is a supported brand, namely the classifier's name. The number is 13 or 16 digits and ends with the recorded last four |
| CardApi.AmexUnsupported | Backend/api/card.js:74-77 | A Luhn-valid American Express number is refused as an unsupported type |
| CardApi.RefundPayment | Backend/api/card.js:107-124 | A refund always succeeds, echoing the transaction and amount in USD |
| CardApi.RefundOfApproved | Backend/api/card.js:89-118 | Refunding an approved payment names that payment and its amount and currency, under a `REF-` id that never equals the payment's `CARD-` id |
| PaymentValidation.FirstErrorAt | Backend/validation/paymentValidation.js:65 | When every key before the i-th passes and the i-th fails, the reported error is the i-th key's |
| PaymentValidation.SmallestUndeclaredIndex | Backend/validation/paymentValidation.js:61 | The undeclared array-index key of least value: none exactly when no undeclared key is an array index, otherwise such a key of the body that no other undeclared array index undercuts |
| PaymentValidation.UnknownKeyOrder | Backend/validation/paymentValidation.js:61 | The undeclared key reported is the one `Object.keys` lists first: the array index of least value when there is one, otherwise the first undeclared key of the text |
| PaymentValidation.IndexKeyReportedFirst | Backend/validation/paymentValidation.js:8-16 | A mobile body with a valid phone and amount and the extra keys `b` and then `0` is refused with '"0" is not allowed' |
| PaymentValidation.BodyErrorNone | Backend/validation/paymentValidation.js:61 | `schema.validate` gives no error exactly when the body is an object whose every declared key passes and which has no undeclared key |
| PaymentValidation.PaypalSchemaAccepts | Backend/validation/paymentValidation.js:3-6 | A PayPal body passes iff it has a positive amount and, if present, a string currency, with no other key |
| PaymentValidation.MobileSchemaAccepts | Backend/validation/paymentValidation.js:8-26 | A mobile body passes iff its phone number matches `254` followed by 9 digits and its amount is positive, with no other key |
| PaymentValidation.MobilePhoneMessage | Backend/validation/paymentValidation.js:12-14 | A non-empty string phone number of the wrong shape is answered with the custom format message |
| PaymentValidation.CardFieldsAccept | Backend/validation/paymentValidation.js:29-49 | Card details pass iff: the number is 16 digits; the expiry is `MM/YY` with month 01 to 12; the CVC is 3 or 4 digits; the name is a non-empty string; there are no other keys |
| PaymentValidation.CardNumberMessage | Backend/validation/paymentValidation.js:30-35 | A non-empty string card number that is not 16 digits is answered with 'Card number must be 16 digits' |
| PaymentValidation.CardSchemaAccepts | Backend/validation/paymentValidation.js:28-52 | A card body passes iff it has passing card details, a positive amount and, if present, a string currency, with no other key |
| PaymentValidation.ConfirmationSchemaAccepts | Backend/validation/paymentValidation.js:54-57 | A confirmation passes iff the provider is 'mpesa' or 'airtel' and the transaction id is a non-empty string |
| PaymentValidation.ValidateRequest | Backend/validation/paymentValidation.js:59-70 | The middleware calls `next` with the body unchanged exactly when the schema accepts it. Otherwise it answers 400 with `success: false` and the first error's message |
| Server.Route | Backend/routes/paymentRoutes.js:21-32 | A path routes to the endpoint registered for it, and unregistered paths route nowhere |
| Server.Serve | Backend/server.js:31-36 | An unknown path gets 404 'Route not found'. A body the route's schema refuses gets its first error. An accepted body gets the controller's answer |
| Server.ServeOnRoute | Backend/routes/paymentRoutes.js:21-32 | On a registered route, the controller answers exactly when the schema accepts the body |
| Server.ServeRejects | Backend/validation/paymentValidation.js:62-67 | A refused body is answered with the schema's message, whatever the controller would say |
| Phone.FormatPhoneNumber | Frontend/src/services/mpesa.js:43-55 | The result is all digits and starts with 254. A leading 0 is replaced by 254, a number without 254 gets it prepended, and one with 254 is kept |
| Phone.FormatIdempotent | Frontend/src/services/airtel.js:44-56 | Formatting twice gives what formatting once gives |
| Phone.FormatMatchesServerPattern | Frontend/src/services/mpesa.js:44-54 | The result matches the server's pattern exactly when the input's digits are one of: 0 and 9 more; 9 digits not starting with 0 or 254; 254 and 9 more |
| Phone.ThreeSpellings | Frontend/src/services/mpesa.js:47-52 | The spellings 07..., 7... and 2547... of one subscriber all format to the same international number |
| PaymentValidation.Get | Frontend/src/services/airtel.js:18 | Reading a property throws on null or undefined, and yields the member when it is present |
| MobileServices.InitiateRequest | Frontend/src/services/mpesa.js:11-14 | The formatted number and the amount are posted to the provider's own initiate route |
| MobileServices.MpesaInitiateResult | Frontend/src/services/mpesa.js:9-24 | Any non-null reply starts the payment with the reply's `checkoutRequestID`. An HTTP error fails with the server's message or 'M-Pesa payment failed' |
| MobileServices.AirtelInitiateResult | Frontend/src/services/airtel.js:9-25 | A reply starts the payment exactly when its `transaction` is present and non-null; the result echoes that transaction and its `reference`. Any other reply fails with 'Airtel Money payment failed'. An HTTP error fails with the server's message or that fallback |
| MobileServices.AirtelReferenceEchoed | Frontend/src/services/airtel.js:16-20 | A reply whose transaction carries a reference starts a payment with that reference |
| MobileServices.StatusResult | Frontend/src/services/mpesa.js:33-40 | Every non-null reply counts as success, whatever its status says. A `null` body fails with 'Failed to check payment status', because reading `status` off it throws. An HTTP error shows the server's message or that fallback |
| MobileServices.CheckPaymentStatusAsWritten | Frontend/src/services/mpesa.js:26-41 | As written, every status check fails with 'Route not found' |
| MobileServices.CheckPaymentStatus | Frontend/src/services/airtel.js:27-42 | Posted to the provider's confirmation route, a non-empty string id reaches the controller. A missing id is refused with '"transactionId" is required' |
| MobileServices.StatusBodyChecked | Backend/validation/paymentValidation.js:54-57 | The body the services send passes the confirmation schema exactly in the non-empty string id case shown |
| Utf8.EncodeChar | Backend/api/mpesa.js:33 | Each code point takes 1 to 4 bytes by its range, only ASCII takes a single byte below 0x80, and every byte after the first is a continuation byte |
| Utf8.DecodeEncode | Backend/api/mpesa.js:33 | Decoding the UTF-8 encoding of any string of scalar values gives the string back |
| Utf8.AsciiEncoding | Backend/api/mpesa.js:33 | An ASCII string encodes to one byte per character, equal to its code |
| Base64.EncodeLength | Backend/api/mpesa.js:33 | The encoding has 4 characters per started 3-byte group |
| Base64.EncodeAlphabet | Backend/api/mpesa.js:33 | Every encoded character is from the base64 alphabet except the final '=' padding, whose length (0, 1 or 2) follows from the input length |
| Base64.DecodeEncode | Backend/api/mpesa.js:33 | Decoding the base64 text of any byte sequence gives the bytes back |
| MpesaApi.Timestamp | Backend/api/mpesa.js:32 | The timestamp is the string's digits without the last three |
| MpesaApi.IsoTimestamp | Backend/api/mpesa.js:32 | On an ISO time, the timestamp is the 14 digits `YYYYMMDDHHMMSS` |
| MpesaApi.PasswordDecodes | Backend/api/mpesa.js:33 | The password decodes to shortcode, passkey and timestamp concatenated |
| MpesaApi.StkPushRequest | Backend/api/mpesa.js:29-49 | The push body carries: the shortcode as business and party B; the phone as party A and phone; the amount; the callback under `BASE_URL`; a password that decodes to its parts |
| MpesaApi.StkQueryRequest | Backend/api/mpesa.js:62-75 | The query body carries the shortcode, the checkout id, and a password that decodes to shortcode, passkey and its own timestamp |
| MpesaApi.QueryDerivesAsPush | Backend/api/mpesa.js:65-66 | A query and a push share a password exactly when they share a timestamp |
| Poller.TickCount | Frontend/src/components/PaymentForm.jsx:67-69 | The number of 5000 ms ticks that run before the 120000 ms timeout, with the tie at 120000 ms going either way |
| Poller.TicksSucceed | Frontend/src/components/PaymentForm.jsx:61-67 | Polling has succeeded after n ticks exactly when some check among the first n succeeded |
| Poller.TicksState | Frontend/src/components/PaymentForm.jsx:61-67 | Polling stops at the first successful check and keeps polling until then |
| Poller.PollingState | Frontend/src/components/PaymentForm.jsx:61-69 | When the timeout fires, polling has stopped. It has succeeded exactly when a check before the timeout did |
| Poller.FailuresKeepPolling | Frontend/src/components/PaymentForm.jsx:61-69 | When every check fails, all ticks run and no success is reported |
| PaymentForm.HandleSubmit | Frontend/src/components/PaymentForm.jsx:49-106 | Loading always ends. Polling starts exactly when an M-Pesa or Airtel initiate succeeds, with `checkoutRequestID` or `transaction.id`. An invalid card shows the first field error without posting. A valid card is posted as the card service writes it, with only whitespace removed. It succeeds exactly when the reply body is non-null. A `null` body shows 'Card payment failed', and an HTTP error shows the server's message or that fallback. Success implies no error. An unknown method does nothing |
| PaymentForm.PollingAsWrittenNeverSucceeds | Frontend/src/components/PaymentForm.jsx:61-69 | As written, polling never reports success and runs every tick until the timeout |
| PaymentForm.CheckSucceedsOnReply | Frontend/src/components/PaymentForm.jsx:62-63 | Once corrected, a check with a string id succeeds exactly when the server replies with a non-null body |
| PaymentForm.PollingSucceedsOnAnyReply | Frontend/src/components/PaymentForm.jsx:61-69 | Once corrected, polling succeeds exactly when one of its checks before the timeout gets a reply |
| PaymentForm.PollingWithoutIdNeverSucceeds | Frontend/src/components/PaymentForm.jsx:78 | A payment started without an id never reports success, because every check is refused by the schema |
| Consistency.LuhnCopiesAgree | Frontend/src/services/card.js:63-92 | On 16 digits, the client's `isValidCardNumber` (separator removal, length check, Luhn loop) gives the server loop's verdict. The two Luhn loops (card.js:73-91 and Backend/api/card.js:9-30) are the same text and share one definition, `Luhn.RawValidate`, so the lemma is about what the client adds around the loop |
| Consistency.CleanedNumberPassesBackend | Backend/api/card.js:70-72 | A number the client accepts, once cleaned, passes the server's Luhn loop |
| Consistency.ExpiryCopiesAgree | Backend/api/card.js:46-61 | On the `MM/YY` strings the card schema lets through, the server accepts exactly what the client accepts, except that it also refuses year 00 |
| Consistency.ClassifiersAgree | Frontend/src/services/paymentMethods.js:103-116 | The two-brand classifier agrees with the four-brand one on Visa and Mastercard, and answers unknown otherwise |
| Consistency.CardBodyAccepted | Backend/validation/paymentValidation.js:28-52 | The body the client posts passes the card schema exactly when: the number is 16 digits; the expiry is `MM/YY`; the CVC is 3 or 4 digits; the name is non-empty; the amount is positive |
| Consistency.DashedRequestRejected | Frontend/src/services/card.js:45-49 | The request posted for a validated dashed number is refused by the card schema with 'Card number must be 16 digits' |
| Consistency.CardRouteRejects | Backend/routes/paymentRoutes.js:32 | A card body that the schema refuses gets that message from the card route |
| Consistency.ErrorReplyShown | Frontend/src/services/card.js:57-59 | The client rethrows the server's error message |
| Consistency.DashedCardFails | Frontend/src/services/card.js:48 | End to end, a validated dashed card number fails with 'Card number must be 16 digits' |
| Consistency.DashedCardSubmitShowsError | Frontend/src/components/PaymentForm.jsx:89-102 | Submitting such a card through the form shows 'Card number must be 16 digits' and reports no success |
| Consistency.CleanedRequestAccepted | Frontend/src/services/card.js:45-51 | The corrected request passes the card schema whenever the client validated the card and the amount is positive |
| Consistency.InitiateRequestAccepted | Backend/validation/paymentValidation.js:8-16 | The initiate body carries the formatted number and amount. It passes the mobile schema exactly when the formatted number has the server's shape and the amount is positive |

## Left out

- Floating point: amounts are integers. `parseFloat(amount)` in the client card service and Joi's number coercion, unsafe-number and infinity checks are not modelled.
- Joi's default conversion of numeric strings to numbers is not modelled: a string amount is refused in the model. Also not modelled: `.default('USD')` filling in the currency, and the exact text of built-in messages other than `"x" is required`, `"x" must be a ...` and the custom pattern messages. Built-in messages are modelled by their label and kind.
- Duplicate keys in a JSON object: `PaymentValidation.Lookup` reads the last occurrence, as `JSON.parse` keeps it. The unknown-key check walks the members in text order, so a repeated key is found where it first occurs, which is where the parsed object creates it.
- Concurrency: each status check resolves before the next 5000 ms tick. Overlapping checks, and a check that resolves after the timeout, are not modelled.
- Strings are sequences of Unicode scalar values. Lone surrogates, which `Buffer.from` replaces with U+FFFD, are outside the model.
- `BASE_URL` and the M-Pesa credentials are parameters, never `undefined`. `VITE_API_URL` is not a parameter: the client requests are modelled as paths that `Server.Route` matches under the `/api` mount. So the model assumes that `VITE_API_URL` is exactly the server's `/api` root.
- HTTP itself is left out:
  - the access-token requests;
  - Axios;
  - the PayPal and Airtel server adapters;
  - the controllers (their answer is a parameter);
  - the rate limiter, CORS and helmet middleware;
  - the body-size limit;
  - the error-handling middleware.
- Express routing is modelled by exact path equality. Case-insensitive and trailing-slash matching are not modelled.
- CardApi.RefundPayment: the `catch` at Backend/api/card.js:121-123 is unreachable, because nothing in the `try` can throw. It is not modelled.
- The year in every expiry check is the two-digit year. A four-digit year such as `12/2030` is outside the client's shape check and is not singled out on the server.
- Common.ErrorMessage: a non-string `error.response.data.error` is not modelled, because the reply's `error` field is an optional string.
- The wrappers of `initiateSTKPush` and `checkTransactionStatus` throw fixed messages on any failure. They are not modelled, because the failure is an HTTP outcome.
- The mobile and PayPal wrappers in `Frontend/src/services/paymentMethods.js` are not modelled. Its card `validateCard` and `getCardType` are modelled through `Luhn` and `CardPatterns.ClassifyBasic`.
- CardPatterns.IsCvc is a plain predicate for `/^\d{3,4}$/`. It has no contract of its own.
- `PaymentForm.jsx` rendering, the method selector and the state hooks are not modelled. `handleSubmit`'s outcome is returned as a value.

## Findings

| source | as written | input that shows it | evidently intended | confidence | as-written member | corrected member |
|---|---|---|---|---|---|---|
| Frontend/src/services/card.js:48 | Before posting, `processPayment` removes only whitespace from the number, yet `isValidCardNumber` (line 65) also ignores dashes. The server's card schema then demands exactly 16 digits. | Card number `4242-4242-4242-4242` with a valid expiry, CVC and name: it passes every client check, and the server answers 400 'Card number must be 16 digits' | Post the number cleaned the same way validation cleans it, without spaces and dashes | not executed | Consistency.DashedCardFails | Consistency.CleanedRequestAccepted |
| Frontend/src/services/mpesa.js:28 | Both mobile services (also Frontend/src/services/airtel.js:29) post status checks to `/mobile/confirm`. No route is registered for it (Backend/routes/paymentRoutes.js:25,29), so every check gets 404 'Route not found'. | Any M-Pesa payment that is started: the polling at Frontend/src/components/PaymentForm.jsx:61-69 never reports success | Post to the provider's own route, `/mpesa/confirm` or `/airtel/confirm` | not executed | PaymentForm.PollingAsWrittenNeverSucceeds | PaymentForm.PollingSucceedsOnAnyReply |

=== FILE: base64.dfy ===
/** Base64 with padding (section 4 of RFC 4648), the encoding of
    `Buffer.toString('base64')`: every three bytes become four characters of
    the 64-character alphabet, and a final one or two bytes become two or
    three characters followed by '=' to a multiple of four. */
module Base64 {
  import opened Common

  /** The character of a 6-bit value (Table 1 of RFC 4648). */
  function Char(v: nat): (c: char)
    requires v < 64
  {
    if v < 26 then ('A' as int + v) as char
    else if v < 52 then ('a' as int + (v - 26)) as char
    else if v < 62 then ('0' as int + (v - 52)) as char
    else if v == 62 then '+'
    else '/'
  }

  /** The 6-bit value of an alphabet character; `None` for any other
      character, '=' included. */
  function Index(c: char): (v: Option<nat>)
    ensures v.Some? ==> v.value < 64
  {
    if 'A' <= c <= 'Z' then Some(c as int - 'A' as int)
    else if 'a' <= c <= 'z' then Some(c as int - 'a' as int + 26)
    else if '0' <= c <= '9' then Some(c as int - '0' as int + 52)
    else if c == '+' then Some(62)
    else if c == '/' then Some(63)
    else None
  }

  predicate InAlphabet(c: char) {
    Index(c).Some?
  }

  lemma IndexOfChar(v: nat)
    requires v < 64
    ensures Index(Char(v)) == Some(v)
  {
  }

  /** Three bytes, as one 24-bit group, in four characters: the top six
      bits of `x`; the low two of `x` and the top four of `y`; the low four of
      `y` and the top two of `z`; the low six of `z`. */
  function EncodeBlock(x: byte, y: byte, z: byte): (s: string)
    ensures |s| == 4
  {
    [Char(x / 4), Char((x % 4) * 16 + y / 16), Char((y % 16) * 4 + z / 64), Char(z % 64)]
  }

  /** A final single byte: its eight bits padded with zeros to twelve. */
  function EncodeOne(x: byte): (s: string)
    ensures |s| == 4
  {
    [Char(x / 4), Char((x % 4) * 16), '=', '=']
  }

  /** A final pair of bytes: sixteen bits padded with zeros to eighteen. */
  function EncodeTwo(x: byte, y: byte): (s: string)
    ensures |s| == 4
  {
    [Char(x / 4), Char((x % 4) * 16 + y / 16), Char((y % 16) * 4), '=']
  }

  function Encode(b: seq<byte>): string {
    if |b| == 0 then []
    else if |b| == 1 then EncodeOne(b[0])
    else if |b| == 2 then EncodeTwo(b[0], b[1])
    else EncodeBlock(b[0], b[1], b[2]) + Encode(b[3..])
  }

  /** Four characters back to bytes: one, two or three of them, depending on
      the padding; `None` for characters outside the alphabet, padding that
      is not final, or pad bits that are not zero. */
  function DecodeQuantum(q: string, last: bool): (b: Option<seq<byte>>)
    requires |q| == 4
    ensures b.Some? ==> 1 <= |b.value| <= 3
  {
    var a, c, d, e := Index(q[0]), Index(q[1]), Index(q[2]), Index(q[3]);
    if a.None? || c.None? then None
    else if last && q[2] == '=' && q[3] == '=' then
      if c.value % 16 != 0 then None
      else Some([a.value * 4 + c.value / 16])
    else if d.None? then None
    else if last && q[3] == '=' then
      if d.value % 4 != 0 then None
      else Some([a.value * 4 + c.value / 16, (c.value % 16) * 16 + d.value / 4])
    else if e.None? then None
    else Some([a.value * 4 + c.value / 16, (c.value % 16) * 16 + d.value / 4, (d.value % 4) * 64 + e.value])
  }

  function Decode(s: string): (b: Option<seq<byte>>)
    decreases |s|
  {
    if |s| == 0 then Some([])
    else if |s| < 4 then None
    else
      match DecodeQuantum(s[..4], |s| == 4)
      case None => None
      case Some(head) =>
        match Decode(s[4..])
        case None => None
        case Some(tail) => Some(head + tail)
  }

  /** The number of '=' an encoding of `n` bytes ends with. */
  function Padding(n: nat): nat {
    if n % 3 == 0 then 0 else 3 - n % 3
  }

  /** Four characters for every three bytes or part of three. */
  lemma {:induction false} EncodeLength(b: seq<byte>)
    ensures |Encode(b)| == 4 * ((|b| + 2) / 3)
  {
    if |b| >= 3 {
      EncodeLength(b[3..]);
      assert (|b| + 2) / 3 == (|b[3..]| + 2) / 3 + 1;
    }
  }

  lemma BlockAlphabet(x: byte, y: byte, z: byte)
    ensures PaddedWith(EncodeBlock(x, y, z), 0)
  {
    IndexOfChar(x / 4);
    IndexOfChar((x % 4) * 16 + y / 16);
    IndexOfChar((y % 16) * 4 + z / 64);
    IndexOfChar(z % 64);
  }

  lemma OneAlphabet(x: byte)
    ensures PaddedWith(EncodeOne(x), 2)
  {
    IndexOfChar(x / 4);
    IndexOfChar((x % 4) * 16);
  }

  lemma TwoAlphabet(x: byte, y: byte)
    ensures PaddedWith(EncodeTwo(x, y), 1)
  {
    IndexOfChar(x / 4);
    IndexOfChar((x % 4) * 16 + y / 16);
    IndexOfChar((y % 16) * 4);
  }

  /** `s` is alphabet characters followed by `pad` '=' characters. */
  predicate PaddedWith(s: string, pad: nat) {
    && pad <= |s|
    && (forall i :: 0 <= i < |s| - pad ==> InAlphabet(s[i]))
    && (forall i :: |s| - pad <= i < |s| ==> s[i] == '=')
  }

  lemma PaddedAppend(head: string, tail: string, pad: nat)
    requires PaddedWith(head, 0) && PaddedWith(tail, pad)
    ensures PaddedWith(head + tail, pad)
  {
    var s := head + tail;
    forall i | 0 <= i < |s| - pad ensures InAlphabet(s[i]) {
      if i < |head| { assert s[i] == head[i]; } else { assert s[i] == tail[i - |head|]; }
    }
    forall i | |s| - pad <= i < |s| ensures s[i] == '=' {
      assert s[i] == tail[i - |head|];
    }
  }

  /** The encoding is alphabet characters followed by exactly the padding
      the byte count calls for. */
  lemma {:induction false} EncodeAlphabet(b: seq<byte>)
    ensures PaddedWith(Encode(b), Padding(|b|))
  {
    if |b| == 1 {
      OneAlphabet(b[0]);
    } else if |b| == 2 {
      TwoAlphabet(b[0], b[1]);
    } else if |b| >= 3 {
      EncodeAlphabet(b[3..]);
      BlockAlphabetStep(b);
    }
  }

  /** The inductive step: a full block ahead of a padded encoding. */
  lemma BlockAlphabetStep(b: seq<byte>)
    requires |b| >= 3 && PaddedWith(Encode(b[3..]), Padding(|b| - 3))
    ensures PaddedWith(Encode(b), Padding(|b|))
  {
    BlockSplit(b);
    BlockAlphabet(b[0], b[1], b[2]);
    assert Padding(|b| - 3) == Padding(|b|);
    PaddedAppend(EncodeBlock(b[0], b[1], b[2]), Encode(b[3..]), Padding(|b|));
  }

  /** The bit regrouping is undone by the inverse regrouping. */
  lemma Regroup(x: byte, y: byte, z: byte)
    ensures (x / 4) * 4 + ((x % 4) * 16 + y / 16) / 16 == x
    ensures (((x % 4) * 16 + y / 16) % 16) * 16 + ((y % 16) * 4 + z / 64) / 4 == y
    ensures (((y % 16) * 4 + z / 64) % 4) * 64 + z % 64 == z
  {
  }

  /** A full quantum decodes to its three bytes, last or not. */
  lemma DecodeBlock(x: byte, y: byte, z: byte, last: bool)
    ensures DecodeQuantum(EncodeBlock(x, y, z), last) == Some([x, y, z])
  {
    IndexOfChar(x / 4);
    IndexOfChar((x % 4) * 16 + y / 16);
    IndexOfChar((y % 16) * 4 + z / 64);
    IndexOfChar(z % 64);
    Regroup(x, y, z);
  }

  lemma DecodeOne(x: byte)
    ensures DecodeQuantum(EncodeOne(x), true) == Some([x])
  {
    IndexOfChar(x / 4);
    IndexOfChar((x % 4) * 16);
    Regroup(x, 0, 0);
  }

  lemma DecodeTwo(x: byte, y: byte)
    ensures DecodeQuantum(EncodeTwo(x, y), true) == Some([x, y])
  {
    IndexOfChar(x / 4);
    IndexOfChar((x % 4) * 16 + y / 16);
    IndexOfChar((y % 16) * 4);
    Regroup(x, y, 0);
  }

  /** A quantum that decodes ahead of a string that decodes: their
      concatenation decodes to the two results in order. */
  lemma DecodeCons(q: string, rest: string, head: seq<byte>, tail: seq<byte>)
    requires |q| == 4 && DecodeQuantum(q, rest == []) == Some(head) && Decode(rest) == Some(tail)
    ensures Decode(q + rest) == Some(head + tail)
  {
    var s := q + rest;
    assert s[..4] == q && s[4..] == rest;
    assert (|s| == 4) == (rest == []);
  }

  /** Decoding undoes encoding. */
  lemma {:induction false} DecodeEncode(b: seq<byte>)
    ensures Decode(Encode(b)) == Some(b)
  {
    if |b| == 1 {
      DecodeEncodeOne(b);
    } else if |b| == 2 {
      DecodeEncodeTwo(b);
    } else if |b| >= 3 {
      DecodeEncode(b[3..]);
      DecodeEncodeBlock(b);
    }
  }

  lemma DecodeEncodeOne(b: seq<byte>)
    requires |b| == 1
    ensures Decode(Encode(b)) == Some(b)
  {
    DecodeOne(b[0]);
    DecodeCons(EncodeOne(b[0]), [], [b[0]], []);
    assert EncodeOne(b[0]) + [] == Encode(b);
    assert [b[0]] + [] == b;
  }

  lemma DecodeEncodeTwo(b: seq<byte>)
    requires |b| == 2
    ensures Decode(Encode(b)) == Some(b)
  {
    DecodeTwo(b[0], b[1]);
    DecodeCons(EncodeTwo(b[0], b[1]), [], [b[0], b[1]], []);
    assert EncodeTwo(b[0], b[1]) + [] == Encode(b);
    assert [b[0], b[1]] + [] == b;
  }

  /** The inductive step: a full block ahead of bytes that round-trip. */
  lemma DecodeEncodeBlock(b: seq<byte>)
    requires |b| >= 3 && Decode(Encode(b[3..])) == Some(b[3..])
    ensures Decode(Encode(b)) == Some(b)
  {
    var rest := Encode(b[3..]);
    BlockSplit(b);
    DecodeBlock(b[0], b[1], b[2], rest == []);
    DecodeCons(EncodeBlock(b[0], b[1], b[2]), rest, [b[0], b[1], b[2]], b[3..]);
  }

  lemma BlockSplit(b: seq<byte>)
    requires |b| >= 3
    ensures Encode(b) == EncodeBlock(b[0], b[1], b[2]) + Encode(b[3..])
    ensures [b[0], b[1], b[2]] + b[3..] == b
  {
    BytesSplit(b);
  }

  lemma BytesSplit(b: seq<byte>)
    requires |b| >= 3
    ensures [b[0], b[1], b[2]] + b[3..] == b
  {
    var head: seq<byte> := [b[0], b[1], b[2]];
    assert b[..3] == head;
    assert b[..3] + b[3..] == b;
  }
}

=== FILE: card_api.dfy ===
/** The server-side card adapter: the raw Luhn loop, the two-brand
    classifier, the expiry and CVC checks, and the simulated payment and
    refund records. The random id suffix and the ISO timestamp the adapter
    would draw from `Math.random` and `new Date()` are parameters. */
module CardApi {
  import opened Common
  import opened Text
  import Luhn
  import opened CardPatterns

  // ---------------------------------------------------------------------
  // Expiry date

  /** The two values `[month, year]` destructured from
      `expiryDate.split('/').map(num => parseInt(num.trim()))`. `None`
      stands for NaN, and for the `undefined` year of a string without '/'. */
  datatype ParsedExpiry = ParsedExpiry(month: Option<int>, year: Option<int>)

  function ParseExpiry(expiryDate: string): ParsedExpiry {
    var parts := Split(expiryDate, '/');
    ParsedExpiry(ParseInt(Trim(parts[0])), if |parts| >= 2 then ParseInt(Trim(parts[1])) else None)
  }

  /** Without a '/' the split has one part, so the year is `undefined`. */
  lemma NoSlashNoYear(expiryDate: string)
    ensures '/' !in expiryDate ==> ParseExpiry(expiryDate).year.None?
  {
    if '/' !in expiryDate {
      SplitNoSeparator(expiryDate, '/');
    }
  }

  /** A (year, month) pair that is not before the current two-digit year
      and month. */
  predicate NotBefore(month: int, year: int, today: Today) {
    year > today.year % 100 || (year == today.year % 100 && month >= today.month)
  }

  /** `validateExpiryDate`: a falsy month or year (NaN, undefined or 0) is
      rejected, then a month outside 1..12, then a date before the current
      month. What this means for `MM/YY` text is `ValidateExpiryOfText`,
      and how it relates to the client's check is `ExpiryCopiesAgree`. */
  function ValidateExpiryDate(expiryDate: string, today: Today): (valid: bool)
    ensures valid ==> '/' in expiryDate
    ensures valid <==>
      var p := ParseExpiry(expiryDate);
      && p.month.Some? && p.year.Some?
      && 1 <= p.month.value <= 12 && p.year.value != 0
      && NotBefore(p.month.value, p.year.value, today)
  {
    NoSlashNoYear(expiryDate);
    var p := ParseExpiry(expiryDate);
    var currentYear := today.year % 100;
    var currentMonth := today.month;
    if p.month.None? || p.month.value == 0 || p.year.None? || p.year.value == 0
       || p.month.value < 1 || p.month.value > 12 then false
    else if p.year.value < currentYear || (p.year.value == currentYear && p.month.value < currentMonth) then false
    else true
  }

  /** Trimming a string of digits leaves it as it is. */
  lemma TrimDigits(s: string)
    requires AllDigits(s)
    ensures Trim(s) == s
  {
    assert TrimStart(s) == s by {
      if |s| > 0 { assert IsDigit(s[0]); }
    }
    assert TrimEnd(s) == s by {
      if |s| > 0 { assert IsDigit(s[|s| - 1]); }
    }
  }

  /** `parseInt` of two digits is the number they write. */
  lemma ParseTwoDigits(e: string, i: nat)
    requires i + 1 < |e| && IsDigit(e[i]) && IsDigit(e[i + 1])
    ensures ParseInt(Trim(e[i..i + 2])) == Some(TwoDigitValue(e, i))
  {
    var t := e[i..i + 2];
    assert AllDigits(t);
    TrimDigits(t);
    ParseIntOfDigits(t);
    assert t[..1] == [e[i]];
    assert DecimalValue(t[..1]) == DigitValue(e[i]) by {
      assert t[..1][..0] == [];
    }
  }

  /** On an `MM/YY` string the check is the calendar rule, with the year 00
      always rejected. */
  lemma ValidateExpiryOfText(month: nat, year: nat, today: Today)
    requires month < 100 && year < 100
    ensures ValidateExpiryDate(ExpiryText(month, year), today)
        <==> 1 <= month <= 12 && year != 0 && NotBefore(month, year, today)
  {
    ParseExpiryOfText(month, year);
  }

  /** An `MM/YY` string splits at its '/' into the two numbers. */
  lemma ParseExpiryOfText(month: nat, year: nat)
    requires month < 100 && year < 100
    ensures ParseExpiry(ExpiryText(month, year)) == ParsedExpiry(Some(month as int), Some(year as int))
  {
    var e := ExpiryText(month, year);
    assert e == e[0..2] + ['/'] + e[3..5];
    SplitAtFirst(e[0..2], e[3..5], '/');
    SplitNoSeparator(e[3..5], '/');
    assert e[3..5] == e[3..3 + 2];
    ParseTwoDigits(e, 0);
    ParseTwoDigits(e, 3);
  }

  /** "MM/00" is refused in every month of every year, including the months
      of a year whose last two digits are 00. */
  lemma YearZeroRejected(month: nat, today: Today)
    requires month < 100
    ensures !ValidateExpiryDate(ExpiryText(month, 0), today)
  {
    ValidateExpiryOfText(month, 0, today);
  }

  // ---------------------------------------------------------------------
  // processPayment and refundPayment

  /** The reasons `processPayment` throws, in the order it checks them. */
  datatype Failure = InvalidNumber | UnsupportedType | InvalidExpiry | InvalidCvc {
    function Message(): string {
      match this
      case InvalidNumber => "Invalid card number"
      case UnsupportedType => "Unsupported card type"
      case InvalidExpiry => "Invalid expiry date"
      case InvalidCvc => "Invalid CVC"
    }
  }

  /** `this.supportedCards` */
  const SupportedCards: seq<string> := ["visa", "mastercard"]

  /** `s.slice(-k)`: the last `k` characters, or all of a shorter string. */
  function TakeLast(s: string, k: nat): (r: string)
    ensures |r| == if |s| < k then |s| else k
    ensures r == s[|s| - |r|..]
  {
    if |s| <= k then s else s[|s| - k..]
  }

  datatype CardSummary = CardSummary(cardType: string, last4: string)

  /** The simulated processor's answer; `amount` is echoed as received. */
  datatype PaymentResponse<A> =
    PaymentResponse(id: string, status: string, amount: A, currency: string, card: CardSummary, timestamp: string)

  function Reject<R>(f: Failure): Outcome<R> {
    Err("Card payment failed: " + f.Message())
  }

  /** `processPayment(cardDetails, amount)`: Luhn, then a supported brand,
      then expiry, then CVC; the first failure is thrown prefixed with
      'Card payment failed: '. `token` is the random id suffix and
      `timestamp` the ISO time. */
  function ProcessPayment<A>(d: CardDetails, amount: A, token: string, timestamp: string, today: Today)
    : (r: Outcome<PaymentResponse<A>>)
    ensures r.Ok? <==>
      Luhn.LuhnValid(d.number) && (IsVisa(d.number) || IsMastercard(d.number))
      && ValidateExpiryDate(d.expiry, today) && IsCvc(d.cvc)
    ensures !Luhn.LuhnValid(d.number) ==> r == Reject(InvalidNumber)
    ensures Luhn.LuhnValid(d.number) && !IsVisa(d.number) && !IsMastercard(d.number) ==> r == Reject(UnsupportedType)
    ensures (Luhn.LuhnValid(d.number) && (IsVisa(d.number) || IsMastercard(d.number))
             && !ValidateExpiryDate(d.expiry, today)) ==> r == Reject(InvalidExpiry)
    ensures (Luhn.LuhnValid(d.number) && (IsVisa(d.number) || IsMastercard(d.number))
             && ValidateExpiryDate(d.expiry, today) && !IsCvc(d.cvc)) ==> r == Reject(InvalidCvc)
  {
    var cardType := ClassifyBasic(d.number);
    if !Luhn.RawValidate(d.number) then Reject(InvalidNumber)
    else if cardType.Name() !in SupportedCards then Reject(UnsupportedType)
    else if !ValidateExpiryDate(d.expiry, today) then Reject(InvalidExpiry)
    else if !IsCvc(d.cvc) then Reject(InvalidCvc)
    else
      Ok(PaymentResponse("CARD-" + token, "success", amount, "USD",
                         CardSummary(cardType.Name(), TakeLast(d.number, 4)), timestamp))
  }

  /** The record of an accepted payment: a successful USD charge of the
      amount as received, under the brand the classifier names and the last
      four digits of a 13- or 16-digit number. */
  lemma ApprovedPayment<A>(d: CardDetails, amount: A, token: string, timestamp: string, today: Today)
    requires ProcessPayment(d, amount, token, timestamp, today).Ok?
    ensures var p := ProcessPayment(d, amount, token, timestamp, today).value;
      && p.status == "success" && p.currency == "USD" && p.amount == amount
      && p.id == "CARD-" + token && p.timestamp == timestamp
      && p.card.cardType in SupportedCards && p.card.cardType == ClassifyBasic(d.number).Name()
      && AllDigits(d.number) && (|d.number| == 13 || |d.number| == 16)
      && |p.card.last4| == 4 && d.number == d.number[..|d.number| - 4] + p.card.last4
  {
    var t := ClassifyBasic(d.number);
    assert IsVisa(d.number) || IsMastercard(d.number);
    assert t.Name() in SupportedCards;
    var last := TakeLast(d.number, 4);
    assert d.number[..|d.number| - 4] + last == d.number;
  }

  /** A number that passes the Luhn test but is an American Express number
      is refused as an unsupported brand, whatever the other fields hold. */
  lemma AmexUnsupported<A>(d: CardDetails, amount: A, token: string, timestamp: string, today: Today)
    requires Luhn.LuhnValid(d.number) && IsAmex(d.number)
    ensures ProcessPayment(d, amount, token, timestamp, today) == Reject(UnsupportedType)
  {
    PatternsDisjoint(d.number);
  }

  datatype RefundResponse<T, A> =
    RefundResponse(id: string, originalTransaction: T, status: string, amount: A, currency: string, timestamp: string)

  /** `refundPayment(transactionId, amount)`: nothing in its body can throw,
      so it always answers with a successful refund record. How a refund
      relates to the payment it undoes is `RefundOfApproved`. */
  function RefundPayment<T, A>(transactionId: T, amount: A, token: string, timestamp: string)
    : (r: Outcome<RefundResponse<T, A>>)
    ensures r.Ok?
    ensures r.value.originalTransaction == transactionId && r.value.amount == amount
    ensures r.value.status == "success" && r.value.currency == "USD"
    ensures r.value.id == "REF-" + token && r.value.timestamp == timestamp
  {
    Ok(RefundResponse("REF-" + token, transactionId, "success", amount, "USD", timestamp))
  }
  /** Refunding an approved payment: the refund names the payment and its
      amount and currency, under an id that cannot be taken for a payment's. */
  lemma RefundOfApproved<A>(d: CardDetails, amount: A, token: string, timestamp: string, today: Today,
                            refundToken: string, refundTime: string)
    requires ProcessPayment(d, amount, token, timestamp, today).Ok?
    ensures var p := ProcessPayment(d, amount, token, timestamp, today).value;
      var f := RefundPayment(p.id, p.amount, refundToken, refundTime).value;
      && f.originalTransaction == p.id && f.amount == amount && f.currency == p.currency
      && f.id != p.id
  {
    var p := ProcessPayment(d, amount, token, timestamp, today).value;
    ApprovedPayment(d, amount, token, timestamp, today);
    var f := RefundPayment(p.id, p.amount, refundToken, refundTime).value;
    assert f.id[0] == 'R' && p.id[0] == 'C';
  }

}

=== FILE: card_patterns.dfy ===
/** The card-brand regular expressions shared by the three card classifiers,
    the two orders in which the classifiers try them, and the CVC and MM/YY
    shapes the card checks share. */
module CardPatterns {
  import opened Text

  datatype CardType = Visa | Mastercard | Amex | Discover | Unknown {
    /** The string the source returns for the type. */
    function Name(): string {
      match this
      case Visa => "visa"
      case Mastercard => "mastercard"
      case Amex => "amex"
      case Discover => "discover"
      case Unknown => "unknown"
    }
  }

  /** `^4[0-9]{12}(?:[0-9]{3})?$`: a 4 and then 12 or 15 digits. */
  predicate IsVisa(s: string) {
    (|s| == 13 || |s| == 16) && AllDigits(s) && s[0] == '4'
  }

  /** `^5[1-5][0-9]{14}$`: 51 to 55 and then 14 digits. */
  predicate IsMastercard(s: string) {
    |s| == 16 && AllDigits(s) && s[0] == '5' && '1' <= s[1] <= '5'
  }

  /** `^3[47][0-9]{13}$`: 34 or 37 and then 13 digits. */
  predicate IsAmex(s: string) {
    |s| == 15 && AllDigits(s) && s[0] == '3' && (s[1] == '4' || s[1] == '7')
  }

  /** `^6(?:011|5[0-9]{2})[0-9]{12}$`: 6011 or 65 and two digits, then 12 digits. */
  predicate IsDiscover(s: string) {
    |s| == 16 && AllDigits(s) && ("6011" <= s || "65" <= s)
  }

  /** No string matches two of the brand patterns, so the order in which a
      classifier tries them never decides its answer. */
  lemma PatternsDisjoint(s: string)
    ensures !(IsVisa(s) && IsMastercard(s))
    ensures !(IsVisa(s) && IsAmex(s))
    ensures !(IsVisa(s) && IsDiscover(s))
    ensures !(IsMastercard(s) && IsAmex(s))
    ensures !(IsMastercard(s) && IsDiscover(s))
    ensures !(IsAmex(s) && IsDiscover(s))
  {
    if IsDiscover(s) {
      assert s[0] == '6' by {
        if "6011" <= s { assert s[0] == "6011"[0]; } else { assert s[0] == "65"[0]; }
      }
    }
  }

  /** The four-pattern table of the frontend card service, tried in the
      order visa, mastercard, amex, discover; the first match wins. */
  function ClassifyAll(s: string): (t: CardType)
    ensures t == Visa <==> IsVisa(s)
    ensures t == Mastercard <==> IsMastercard(s)
    ensures t == Amex <==> IsAmex(s)
    ensures t == Discover <==> IsDiscover(s)
  {
    PatternsDisjoint(s);
    if IsVisa(s) then Visa
    else if IsMastercard(s) then Mastercard
    else if IsAmex(s) then Amex
    else if IsDiscover(s) then Discover
    else Unknown
  }

  /** The two-pattern table of the card API and of the frontend payment-method
      table: only visa and mastercard are recognised. */
  function ClassifyBasic(s: string): (t: CardType)
    ensures t in {Visa, Mastercard, Unknown}
    ensures t == Visa <==> IsVisa(s)
    ensures t == Mastercard <==> IsMastercard(s)
    ensures t == ClassifyAll(s) || t == Unknown
  {
    if IsVisa(s) then Visa
    else if IsMastercard(s) then Mastercard
    else Unknown
  }

  /** The card fields of a payment form and of the card request body. */
  datatype CardDetails = CardDetails(number: string, expiry: string, cvc: string, name: string)

  /** `^\d{3,4}$` and `^[0-9]{3,4}$`: three or four digits. */
  predicate IsCvc(cvc: string) {
    (|cvc| == 3 || |cvc| == 4) && AllDigits(cvc)
  }

  /** `^\d{2}\/\d{2}$` */
  predicate ExpiryShape(e: string) {
    |e| == 5 && IsDigit(e[0]) && IsDigit(e[1]) && e[2] == '/' && IsDigit(e[3]) && IsDigit(e[4])
  }

  /** The number written by the two digits at `e[i]` and `e[i + 1]`. */
  function TwoDigitValue(e: string, i: nat): (n: nat)
    requires i + 1 < |e| && IsDigit(e[i]) && IsDigit(e[i + 1])
    ensures n < 100
  {
    10 * DigitValue(e[i]) + DigitValue(e[i + 1])
  }

  function DigitChar(d: nat): (c: char)
    requires d < 10
    ensures IsDigit(c) && DigitValue(c) == d
  {
    ('0' as int + d) as char
  }

  /** The `MM/YY` text of a month and a two-digit year. */
  function ExpiryText(month: nat, year: nat): (e: string)
    requires month < 100 && year < 100
    ensures ExpiryShape(e)
    ensures TwoDigitValue(e, 0) == month && TwoDigitValue(e, 3) == year
  {
    [DigitChar(month / 10), DigitChar(month % 10), '/', DigitChar(year / 10), DigitChar(year % 10)]
  }

  /** Every well-shaped expiry is the text of the month and year it spells. */
  lemma ExpiryTextOfShape(e: string)
    requires ExpiryShape(e)
    ensures e == ExpiryText(TwoDigitValue(e, 0), TwoDigitValue(e, 3))
  {
    var t := ExpiryText(TwoDigitValue(e, 0), TwoDigitValue(e, 3));
    assert t[0] == e[0] && t[1] == e[1] && t[3] == e[3] && t[4] == e[4];
  }
}

=== FILE: card_service.dfy ===
/** The frontend card service: client-side validation of the card form and
    the pre-request part of `processPayment`. */
module CardService {
  import opened Common
  import opened Text
  import Luhn
  import opened CardPatterns
  import opened PaymentValidation

  /** The keys of the `errors` object, in the order `validateCard` adds them. */
  datatype Field = NumberField | ExpiryField | CvcField | NameField {
    function Rank(): nat {
      match this
      case NumberField => 0
      case ExpiryField => 1
      case CvcField => 2
      case NameField => 3
    }

    function Message(): string {
      match this
      case NumberField => "Invalid card number"
      case ExpiryField => "Invalid expiry date"
      case CvcField => "Invalid CVC"
      case NameField => "Invalid cardholder name"
    }
  }

  /** The `{ isValid, errors }` object; `errors` lists its entries in
      insertion order, which is the order `Object.values` returns them. */
  datatype Validation = Validation(isValid: bool, errors: seq<(Field, string)>)

  // ---------------------------------------------------------------------
  // Card number

  /** `isValidCardNumber`: spaces and dashes are deleted, the rest must be
      exactly 16 digits, and then pass the Luhn loop. */
  function IsValidCardNumber(number: string): (valid: bool)
    ensures valid <==> |RemoveSeparators(number)| == 16 && Luhn.LuhnValid(RemoveSeparators(number))
  {
    var cleaned := RemoveSeparators(number);
    |cleaned| == 16 && AllDigits(cleaned) && Luhn.RawValidate(cleaned)
  }

  /** Inserting a space or a dash anywhere never changes the verdict. */
  lemma SeparatorInsertionIgnored(a: string, b: string, c: char)
    requires IsSeparator(c)
    ensures IsValidCardNumber(a + [c] + b) == IsValidCardNumber(a + b)
  {
    FilterConcat(a + [c], b, NotSeparator);
    FilterConcat(a, [c], NotSeparator);
    FilterConcat(a, b, NotSeparator);
    assert [c][1..] == [];
    assert Filter([c], NotSeparator) == [] + Filter([], NotSeparator);
    assert Filter(a, NotSeparator) + [] == Filter(a, NotSeparator);
    assert RemoveSeparators(a + [c] + b) == RemoveSeparators(a + b);
  }

  /** Cleaning first makes no difference: the verdict depends only on the
      characters that are not separators. */
  lemma CleanedNumberSameVerdict(number: string)
    ensures IsValidCardNumber(RemoveSeparators(number)) == IsValidCardNumber(number)
  {
    FilterKeepsAll(RemoveSeparators(number), NotSeparator);
  }

  // ---------------------------------------------------------------------
  // Expiry date

  /** `isValidExpiryDate`: after the shape check, `split('/')` yields the
      two digit pairs and `parseInt(_, 10)` their values. The month must be
      1 to 12, and (year, month) must not precede the current two-digit
      year and month. */
  function IsValidExpiryDate(expiry: string, today: Today): (valid: bool)
    ensures valid ==> ExpiryShape(expiry)
  {
    if !ExpiryShape(expiry) then false
    else
      var month := TwoDigitValue(expiry, 0);
      var year := TwoDigitValue(expiry, 3);
      var currentYear := today.year % 100;
      var currentMonth := today.month;
      if month < 1 || month > 12 then false
      else if year < currentYear || (year == currentYear && month < currentMonth) then false
      else true
  }

  /** The expiry rule in calendar terms: a month 1 to 12 whose (year, month)
      pair is not before the current two-digit year and month. */
  lemma ExpiryRule(month: nat, year: nat, today: Today)
    requires month < 100 && year < 100
    ensures IsValidExpiryDate(ExpiryText(month, year), today)
        <==> 1 <= month <= 12
             && (year > today.year % 100 || (year == today.year % 100 && month >= today.month))
  {
  }

  /** The current month itself is accepted; the month before it is not;
      month 13 never is. */
  lemma ExpiryBoundaries(today: Today, year: nat)
    requires 1 <= today.month <= 12 && year < 100
    ensures IsValidExpiryDate(ExpiryText(today.month, today.year % 100), today)
    ensures today.month > 1 ==> !IsValidExpiryDate(ExpiryText(today.month - 1, today.year % 100), today)
    ensures (today.month == 1 && today.year % 100 > 0)
              ==> !IsValidExpiryDate(ExpiryText(12, today.year % 100 - 1), today)
    ensures !IsValidExpiryDate(ExpiryText(13, year), today)
  {
    ExpiryRule(today.month, today.year % 100, today);
    if today.month > 1 {
      ExpiryRule(today.month - 1, today.year % 100, today);
    }
    if today.month == 1 && today.year % 100 > 0 {
      ExpiryRule(12, today.year % 100 - 1, today);
    }
    ExpiryRule(13, year, today);
  }

  // ---------------------------------------------------------------------
  // CVC, name and the whole form

  /** `!name || name.trim().length < 3` is false: at least three UTF-16
      code units remain after trimming (the empty string fails). */
  predicate IsValidName(name: string) {
    JsLength(Trim(name)) >= 3
  }

  /** Whether one field of the form passes its check. */
  predicate Passes(f: Field, d: CardDetails, today: Today) {
    match f
    case NumberField => IsValidCardNumber(d.number)
    case ExpiryField => IsValidExpiryDate(d.expiry, today)
    case CvcField => IsCvc(d.cvc)
    case NameField => IsValidName(d.name)
  }

  /** The fields in the order `validateCard` checks them. */
  const CheckOrder: seq<Field> := [NumberField, ExpiryField, CvcField, NameField]

  /** Whether `errors` holds an entry for field `f`. */
  predicate HasError(errors: seq<(Field, string)>, f: Field) {
    exists i :: 0 <= i < |errors| && errors[i].0 == f
  }

  /** One `errors.<field> = message` per failing field of `fields`, in order. */
  function CollectErrors(fields: seq<Field>, pass: Field -> bool): seq<(Field, string)> {
    if |fields| == 0 then []
    else (if pass(fields[0]) then [] else [(fields[0], fields[0].Message())]) + CollectErrors(fields[1..], pass)
  }

  predicate RanksIncrease(fields: seq<Field>) {
    forall i, j :: 0 <= i < j < |fields| ==> fields[i].Rank() < fields[j].Rank()
  }

  lemma {:induction false} CollectErrorsEmpty(fields: seq<Field>, pass: Field -> bool)
    ensures CollectErrors(fields, pass) == [] <==> forall k :: 0 <= k < |fields| ==> pass(fields[k])
  {
    if |fields| > 0 {
      CollectErrorsEmpty(fields[1..], pass);
      if pass(fields[0]) {
        forall k | 1 <= k < |fields| ensures fields[k] == fields[1..][k - 1] { }
      }
    }
  }

  lemma {:induction false} CollectErrorsMembers(fields: seq<Field>, pass: Field -> bool, f: Field)
    ensures HasError(CollectErrors(fields, pass), f) <==> f in fields && !pass(f)
  {
    if |fields| > 0 {
      var rest := fields[1..];
      CollectErrorsMembers(rest, pass, f);
      var head := if pass(fields[0]) then [] else [(fields[0], fields[0].Message())];
      HasErrorConcat(head, CollectErrors(rest, pass), f);
      assert HasError(head, f) <==> f == fields[0] && !pass(f) by {
        if HasError(head, f) { assert head[0].0 == f; }
      }
      assert f in fields <==> f == fields[0] || f in rest;
    }
  }

  lemma HasErrorConcat(a: seq<(Field, string)>, b: seq<(Field, string)>, f: Field)
    ensures HasError(a + b, f) <==> HasError(a, f) || HasError(b, f)
  {
    var errors := a + b;
    if HasError(b, f) {
      var i :| 0 <= i < |b| && b[i].0 == f;
      assert errors[|a| + i].0 == f;
    }
    if HasError(a, f) {
      var i :| 0 <= i < |a| && a[i].0 == f;
      assert errors[i].0 == f;
    }
    if HasError(errors, f) {
      var i :| 0 <= i < |errors| && errors[i].0 == f;
      if i >= |a| { assert b[i - |a|].0 == f; } else { assert a[i].0 == f; }
    }
  }


  lemma {:induction false} CollectErrorsMessages(fields: seq<Field>, pass: Field -> bool)
    ensures forall i :: 0 <= i < |CollectErrors(fields, pass)|
              ==> CollectErrors(fields, pass)[i].1 == CollectErrors(fields, pass)[i].0.Message()
  {
    if |fields| > 0 {
      CollectErrorsMessages(fields[1..], pass);
    }
  }

  predicate ErrorRanksIncrease(errors: seq<(Field, string)>) {
    forall i, j :: 0 <= i < j < |errors| ==> errors[i].0.Rank() < errors[j].0.Rank()
  }

  lemma {:induction false} CollectErrorsOrdered(fields: seq<Field>, pass: Field -> bool)
    requires RanksIncrease(fields)
    ensures ErrorRanksIncrease(CollectErrors(fields, pass))
  {
    if |fields| > 0 {
      var rest := fields[1..];
      CollectErrorsOrdered(rest, pass);
      var head := if pass(fields[0]) then [] else [(fields[0], fields[0].Message())];
      var tail := CollectErrors(rest, pass);
      var errors := head + tail;
      assert CollectErrors(fields, pass) == errors;
      forall i, j | 0 <= i < j < |errors| ensures errors[i].0.Rank() < errors[j].0.Rank() {
        if i < |head| {
          var g := errors[j].0;
          assert tail[j - |head|].0 == g;
          assert HasError(tail, g);
          CollectErrorsMembers(rest, pass, g);
          var k :| 0 <= k < |rest| && rest[k] == g;
          assert fields[k + 1] == g;
          assert errors[i].0 == fields[0];
        } else {
          assert errors[i] == tail[i - |head|] && errors[j] == tail[j - |head|];
        }
      }
    }
  }

  /** The first entry belongs to the earliest failing field. */
  lemma {:induction false} CollectErrorsFirst(fields: seq<Field>, pass: Field -> bool, k: nat)
    requires RanksIncrease(fields)
    requires k < |fields| && !pass(fields[k])
    ensures CollectErrors(fields, pass) != []
    ensures CollectErrors(fields, pass)[0].0.Rank() <= fields[k].Rank()
  {
    if !pass(fields[0]) {
      assert CollectErrors(fields, pass)[0].0 == fields[0];
    } else {
      var rest := fields[1..];
      assert CollectErrors(fields, pass) == CollectErrors(rest, pass);
      assert k > 0;
      assert fields[k] == rest[k - 1];
      CollectErrorsFirst(rest, pass, k - 1);
    }
  }

  /** `validateCard`: one entry per failing field, added in the order number,
      expiry, CVC, name; valid exactly when there is none. */
  function ValidateCard(d: CardDetails, today: Today): (v: Validation)
    ensures v.isValid <==> v.errors == []
    ensures v.isValid <==> forall f: Field :: Passes(f, d, today)
    ensures forall f: Field :: HasError(v.errors, f) <==> !Passes(f, d, today)
    ensures forall i :: 0 <= i < |v.errors| ==> v.errors[i].1 == v.errors[i].0.Message()
    ensures forall i, j :: 0 <= i < j < |v.errors| ==> v.errors[i].0.Rank() < v.errors[j].0.Rank()
    ensures !v.isValid ==> forall f: Field :: f.Rank() < v.errors[0].0.Rank() ==> Passes(f, d, today)
  {
    var pass := f => Passes(f, d, today);
    var errors := CollectErrors(CheckOrder, pass);
    CheckOrderErrors(pass, errors);
    CheckOrderErrorsOrdered(pass, errors);
    Validation(|errors| == 0, errors)
  }

  lemma CheckOrderCoversFields(f: Field)
    ensures RanksIncrease(CheckOrder)
    ensures f in CheckOrder && CheckOrder[f.Rank()] == f
  {
    match f
    case NumberField =>
    case ExpiryField =>
    case CvcField =>
    case NameField =>
  }

  /** The error list of the whole form, in terms of the four verdicts. */
  lemma CheckOrderErrors(pass: Field -> bool, errors: seq<(Field, string)>)
    requires errors == CollectErrors(CheckOrder, pass)
    ensures errors == [] <==> forall f: Field :: pass(f)
    ensures forall f: Field :: HasError(errors, f) <==> !pass(f)
    ensures forall i :: 0 <= i < |errors| ==> errors[i].1 == errors[i].0.Message()
  {
    CollectErrorsEmpty(CheckOrder, pass);
    forall f: Field ensures HasError(errors, f) <==> !pass(f) {
      CheckOrderCoversFields(f);
      CollectErrorsMembers(CheckOrder, pass, f);
    }
    if forall k :: 0 <= k < |CheckOrder| ==> pass(CheckOrder[k]) {
      forall f: Field ensures pass(f) { CheckOrderCoversFields(f); }
    }
    CollectErrorsMessages(CheckOrder, pass);
  }

  /** The entries follow the check order, and the first one names the
      earliest failing field. */
  lemma CheckOrderErrorsOrdered(pass: Field -> bool, errors: seq<(Field, string)>)
    requires errors == CollectErrors(CheckOrder, pass)
    ensures forall i, j :: 0 <= i < j < |errors| ==> errors[i].0.Rank() < errors[j].0.Rank()
    ensures errors != [] ==> forall f: Field :: f.Rank() < errors[0].0.Rank() ==> pass(f)
  {
    CheckOrderCoversFields(NumberField);
    CollectErrorsOrdered(CheckOrder, pass);
    if errors != [] {
      forall f: Field | f.Rank() < errors[0].0.Rank() ensures pass(f) {
        if !pass(f) {
          CheckOrderCoversFields(f);
          CollectErrorsFirst(CheckOrder, pass, f.Rank());
        }
      }
    }
  }

  /** `getCardType`: the four-pattern classification of the number with
      spaces and dashes deleted. */
  function GetCardType(number: string): (t: CardType)
    ensures t == Visa <==> IsVisa(RemoveSeparators(number))
    ensures t == Mastercard <==> IsMastercard(RemoveSeparators(number))
    ensures t == Amex <==> IsAmex(RemoveSeparators(number))
    ensures t == Discover <==> IsDiscover(RemoveSeparators(number))
  {
    ClassifyAll(RemoveSeparators(number))
  }

  // ---------------------------------------------------------------------
  // processPayment

  /** The body of the POST to `/card/process`. */
  datatype CardRequest = CardRequest(details: CardDetails, amount: int)

  /** `{ success: true, transaction }` */
  datatype Paid = Paid(success: bool, transaction: Option<Json>)

  /** What `processPayment` sends, if anything, and how it ends. */
  datatype Processed = Processed(posted: Option<CardRequest>, result: Outcome<Paid>)

  /** The reply handling: `response.data.transaction` is read off the reply
      body, which throws on a `null` body; the `catch` reports the server's
      `error` string or 'Card payment failed'. */
  function Settle(reply: Reply<Json>): (r: Outcome<Paid>)
    ensures r.Ok? <==> reply.Replied? && !reply.data.JNull?
    ensures r.Ok? ==> r.value.success && r.value.transaction == OptionOf(Get(Value(reply.data), "transaction"))
    ensures reply.Replied? && reply.data.JNull? ==> r == Err("Card payment failed")
    ensures !reply.Replied? ==> r == Err(ErrorMessage(reply, "Card payment failed"))
  {
    if reply.Replied? then
      var transaction := Get(Value(reply.data), "transaction");
      if transaction.Throws? then Err("Card payment failed")
      else Ok(Paid(true, OptionOf(transaction)))
    else Err(ErrorMessage(reply, "Card payment failed"))
  }

  /** `processPayment` as written: invalid details throw an error without a
      `response`, so the caller sees 'Card payment failed' and nothing is
      posted; valid details are posted with white space, but not dashes,
      deleted from the number. `reply` is what the server would answer. */
  function ProcessPaymentAsWritten(d: CardDetails, amount: int, today: Today, reply: Reply<Json>): (p: Processed)
    ensures !ValidateCard(d, today).isValid ==> p == Processed(None, Err("Card payment failed"))
    ensures ValidateCard(d, today).isValid ==> p.posted == Some(CardRequest(d.(number := RemoveWhitespace(d.number)), amount))
    ensures p.result.Ok? <==> ValidateCard(d, today).isValid && reply.Replied? && !reply.data.JNull?
    ensures p.result.Ok? ==> p.result.value.success
                             && p.result.value.transaction == OptionOf(Get(Value(reply.data), "transaction"))
    ensures ValidateCard(d, today).isValid && reply.Replied? && reply.data.JNull?
            ==> p.result == Err("Card payment failed")
    ensures ValidateCard(d, today).isValid && !reply.Replied?
            ==> p.result == Err(ErrorMessage(reply, "Card payment failed"))
  {
    if !ValidateCard(d, today).isValid then Processed(None, Err("Card payment failed"))
    else
      var request := CardRequest(d.(number := RemoveWhitespace(d.number)), amount);
      Processed(Some(request), Settle(reply))
  }

  /** `processPayment` with the number sent exactly as it was validated,
      spaces and dashes both deleted. */
  function ProcessPayment(d: CardDetails, amount: int, today: Today, reply: Reply<Json>): (p: Processed)
    ensures !ValidateCard(d, today).isValid ==> p == Processed(None, Err("Card payment failed"))
    ensures ValidateCard(d, today).isValid ==> p.posted.Some?
    ensures p.posted.Some? ==> p.posted.value.details.number == RemoveSeparators(d.number)
    ensures p.posted.Some? ==> |p.posted.value.details.number| == 16 && AllDigits(p.posted.value.details.number)
    ensures p.posted.Some? ==> Luhn.LuhnValid(p.posted.value.details.number)
    ensures p.result.Ok? <==> ValidateCard(d, today).isValid && reply.Replied? && !reply.data.JNull?
    ensures p.result.Ok? ==> p.result.value.success
                             && p.result.value.transaction == OptionOf(Get(Value(reply.data), "transaction"))
  {
    if !ValidateCard(d, today).isValid then Processed(None, Err("Card payment failed"))
    else
      assert Passes(NumberField, d, today);
      var request := CardRequest(d.(number := RemoveSeparators(d.number)), amount);
      Processed(Some(request), Settle(reply))
  }

  /** Any valid 16-digit number stays valid when written with a dash. */
  lemma DashedNumberValid(g: string, i: nat)
    requires |g| == 16 && Luhn.LuhnValid(g) && i <= 16
    ensures IsValidCardNumber(g[..i] + "-" + g[i..])
  {
    DigitsUnchanged(g);
    SeparatorInsertionIgnored(g[..i], g[i..], '-');
    assert g[..i] + g[i..] == g;
  }

  /** As written, a number that passes validation with a dash in it is
      posted with the dash still in it, so the posted number is not a string
      of digits; the corrected version posts digits only. */
  lemma DashedNumberPostedWithDashes(d: CardDetails, amount: int, today: Today, reply: Reply<Json>, i: nat)
    requires ValidateCard(d, today).isValid
    requires i < |d.number| && d.number[i] == '-'
    ensures ProcessPaymentAsWritten(d, amount, today, reply).posted.Some?
    ensures '-' in ProcessPaymentAsWritten(d, amount, today, reply).posted.value.details.number
    ensures !AllDigits(ProcessPaymentAsWritten(d, amount, today, reply).posted.value.details.number)
    ensures AllDigits(ProcessPayment(d, amount, today, reply).posted.value.details.number)
  {
    FilterKeepsMember(d.number, NotWhitespace, i);
    var posted := RemoveWhitespace(d.number);
    assert '-' in posted;
    var j :| 0 <= j < |posted| && posted[j] == '-';
    assert !IsDigit(posted[j]);
  }

  /** A valid number that carries a dash: 4242-424242424242. */
  lemma DashedExampleNumber() returns (n: string)
    ensures IsValidCardNumber(n) && '-' in n
  {
    assert 2 * 8 == 16;
    var k :| 2 * k == 16;
    Luhn.FourTwosValid(k);
    var g := Luhn.FourTwos(k);
    DashedNumberValid(g, 4);
    n := g[..4] + "-" + g[4..];
    assert n[4] == '-';
  }

  lemma ExampleName() returns (name: string)
    ensures IsValidName(name)
  {
    name := "Jane Doe";
    assert TrimStart(name) == name;
    assert TrimEnd(name) == name;
  }

  /** For every month of every year there is a form that passes validation
      and whose number carries dashes. */
  lemma DashedFormExists(today: Today)
    requires 1 <= today.month <= 12
    ensures exists d :: ValidateCard(d, today).isValid && '-' in d.number
  {
    var number := DashedExampleNumber();
    ExpiryBoundaries(today, 0);
    var name := ExampleName();
    var d := CardDetails(number, ExpiryText(today.month, today.year % 100), "123", name);
    AllFieldsPass(d, today);
  }

  lemma AllFieldsPass(d: CardDetails, today: Today)
    requires IsValidCardNumber(d.number) && IsValidExpiryDate(d.expiry, today)
    requires IsCvc(d.cvc) && IsValidName(d.name)
    ensures ValidateCard(d, today).isValid
  {
    forall f: Field ensures Passes(f, d, today) {
      CheckOrderCoversFields(f);
    }
  }
}

=== FILE: common.dfy ===
/** Small shared datatypes: an optional value, and the outcome of an
    operation that either produces a value or fails with a message (the
    JavaScript `throw new Error(message)` of the services). */
module Common {

  datatype Option<T> = None | Some(value: T) {
    function GetOr(default: T): T {
      match this
      case Some(v) => v
      case None => default
    }
  }

  /** An octet, as a `Buffer` holds it. */
  type byte = x: int | 0 <= x < 256

  /** The calendar date the code reads from `new Date()`: the full year
      (`getFullYear()`) and the month numbered from 1 (`getMonth() + 1`). */
  datatype Today = Today(year: nat, month: int)

  /** What an awaited call ends with: a value, or a thrown `Error(message)`. */
  datatype Outcome<T> = Ok(value: T) | Err(message: string)

  /** What an axios request observes: the server's reply body, an HTTP error
      whose body may carry an `error` string, or no response at all. */
  datatype Reply<T> = Replied(data: T) | HttpError(errorField: Option<string>) | NoResponse

  /** `error.response?.data?.error || fallback`: the server's error string
      when there is a non-empty one, the fallback otherwise. */
  function ErrorMessage<T>(reply: Reply<T>, fallback: string): (m: string)
    requires !reply.Replied?
    ensures fallback != [] ==> m != []
    ensures reply.HttpError? && reply.errorField.Some? && reply.errorField.value != [] ==> m == reply.errorField.value
    ensures !(reply.HttpError? && reply.errorField.Some? && reply.errorField.value != []) ==> m == fallback
  {
    match reply
    case HttpError(Some(e)) => if e != [] then e else fallback
    case _ => fallback
  }
}

=== FILE: consistency.dfy ===
/** How the copies of the card checks, the client services and the server's
    schemas fit together: where the frontend and backend agree, and the
    requests the client sends that the server turns away. */
module Consistency {
  import opened Common
  import opened Text
  import Luhn
  import opened CardPatterns
  import CardService
  import CardApi
  import opened Phone
  import opened PaymentValidation
  import opened Server
  import MobileServices
  import PaymentForm

  // ---------------------------------------------------------------------
  // Card checks

  /** On sixteen digits the frontend's number check and the backend's raw
      Luhn loop give the same verdict. */
  lemma LuhnCopiesAgree(s: string)
    requires |s| == 16 && AllDigits(s)
    ensures CardService.IsValidCardNumber(s) == Luhn.RawValidate(s)
  {
    DigitsUnchanged(s);
  }

  /** A number the frontend accepts passes the backend's Luhn loop once its
      separators are deleted, which is what the corrected client sends. */
  lemma CleanedNumberPassesBackend(number: string)
    requires CardService.IsValidCardNumber(number)
    ensures Luhn.RawValidate(RemoveSeparators(number))
  {
  }

  /** On the `MM/YY` strings the server's schema lets through, the backend's
      expiry check is the frontend's with the year 00 refused as well. */
  lemma ExpiryCopiesAgree(e: string, today: Today)
    requires IsExpiryPattern(e)
    ensures CardApi.ValidateExpiryDate(e, today)
        <==> CardService.IsValidExpiryDate(e, today) && TwoDigitValue(e, 3) != 0
  {
    ExpiryTextOfShape(e);
    var month, year := TwoDigitValue(e, 0), TwoDigitValue(e, 3);
    CardService.ExpiryRule(month, year, today);
    CardApi.ValidateExpiryOfText(month, year, today);
  }

  /** The backend's two-brand classifier is the frontend's with American
      Express and Discover numbers reported as unknown. */
  lemma ClassifiersAgree(s: string)
    ensures ClassifyBasic(s)
         == if ClassifyAll(s) == Amex || ClassifyAll(s) == Discover then Unknown else ClassifyAll(s)
  {
  }

  // ---------------------------------------------------------------------
  // Card requests against the card schema

  /** The card details object of the body: the form's four fields. */
  function DetailsMembers(c: CardDetails): seq<(string, Json)> {
    [("number", JString(c.number)), ("expiry", JString(c.expiry)), ("cvc", JString(c.cvc)), ("name", JString(c.name))]
  }

  /** The body `processPayment` posts: the details, with the number
      replaced, then the amount. */
  function CardBody(r: CardService.CardRequest): Json {
    JObject([("cardDetails", JObject(DetailsMembers(r.details))), ("amount", JNumber(r.amount))])
  }

  /** The card schema accepts a details object exactly when its fields have
      the schema's shapes. */
  lemma DetailsAccepted(c: CardDetails)
    ensures ObjectOk(CardFields, DetailsMembers(c))
        <==> IsSixteenDigits(c.number) && IsExpiryPattern(c.expiry) && IsCvc(c.cvc) && c.name != []
  {
    DetailsLookups(c);
    DetailsKeys(c);
    FieldsAccepted(DetailsMembers(c), c);
  }

  lemma DetailsLookups(c: CardDetails)
    ensures Lookup(DetailsMembers(c), "number") == Some(JString(c.number))
    ensures Lookup(DetailsMembers(c), "expiry") == Some(JString(c.expiry))
    ensures Lookup(DetailsMembers(c), "cvc") == Some(JString(c.cvc))
    ensures Lookup(DetailsMembers(c), "name") == Some(JString(c.name))
  {
    var members := DetailsMembers(c);
    assert "number" != "expiry" && "number" != "cvc" && "number" != "name";
    assert "expiry" != "cvc" && "expiry" != "name" && "cvc" != "name";
    LookupAt(members, 0, "number");
    LookupAt(members, 1, "expiry");
    LookupAt(members, 2, "cvc");
    LookupAt(members, 3, "name");
  }

  /** Members with the four string fields and no other key. */
  lemma FieldsAccepted(members: seq<(string, Json)>, c: CardDetails)
    requires Lookup(members, "number") == Some(JString(c.number))
    requires Lookup(members, "expiry") == Some(JString(c.expiry))
    requires Lookup(members, "cvc") == Some(JString(c.cvc))
    requires Lookup(members, "name") == Some(JString(c.name))
    requires KeysDeclared(members, ["number", "expiry", "cvc", "name"])
    ensures ObjectOk(CardFields, members)
        <==> IsSixteenDigits(c.number) && IsExpiryPattern(c.expiry) && IsCvc(c.cvc) && c.name != []
  {
    CardFieldsAccept(members);
  }

  lemma DetailsKeys(c: CardDetails)
    ensures KeysDeclared(DetailsMembers(c), ["number", "expiry", "cvc", "name"])
  {
    var members := DetailsMembers(c);
    forall i | 0 <= i < |members| ensures members[i].0 in ["number", "expiry", "cvc", "name"] {
      assert members[i].0 == ["number", "expiry", "cvc", "name"][i];
    }
  }

  /** The card schema accepts a body exactly when its details have the
      schema's shapes and the amount is positive. */
  lemma CardBodyAccepted(r: CardService.CardRequest)
    ensures Accepts(CardSchema, CardBody(r))
        <==> && IsSixteenDigits(r.details.number) && IsExpiryPattern(r.details.expiry)
             && IsCvc(r.details.cvc) && r.details.name != [] && r.amount > 0
  {
    var body := CardBody(r);
    DetailsAccepted(r.details);
    assert "cardDetails" != "amount" && "cardDetails" != "currency" && "amount" != "currency";
    assert Lookup(body.members, "cardDetails") == Some(JObject(DetailsMembers(r.details)));
    assert Lookup(body.members, "amount") == Some(JNumber(r.amount));
    assert Lookup(body.members, "currency") == None;
    assert KeysDeclared(body.members, ["cardDetails", "amount", "currency"]) by {
      assert body.members[0].0 == ["cardDetails", "amount", "currency"][0];
      assert body.members[1].0 == ["cardDetails", "amount", "currency"][1];
    }
    CardSchemaAccepts(body);
  }

  /** As written, a valid form whose number has a dash is posted with the
      dash, and the server's schema refuses it as not 16 digits. */
  lemma DashedRequestRejected(d: CardDetails, amount: int, today: Today, reply: Reply<Json>, i: nat)
    requires CardService.ValidateCard(d, today).isValid
    requires i < |d.number| && d.number[i] == '-'
    ensures var posted := CardService.ProcessPaymentAsWritten(d, amount, today, reply).posted;
      posted.Some? && BodyError(CardSchema, CardBody(posted.value)) == Some("Card number must be 16 digits")
  {
    CardService.DashedNumberPostedWithDashes(d, amount, today, reply, i);
    var posted := CardService.ProcessPaymentAsWritten(d, amount, today, reply).posted.value;
    var body := CardBody(posted);
    assert "cardDetails" != "amount";
    assert Lookup(body.members, "cardDetails") == Some(JObject(DetailsMembers(posted.details)));
    DetailsLookups(posted.details);
    CardNumberMessage(body);
  }

  /** The card route answers a body its schema refuses with 400 and the
      schema's message. */
  lemma CardRouteRejects(body: Json, handled: Reply<Json>, message: string)
    requires BodyError(CardSchema, body) == Some(message)
    ensures Serve(CardProcess.Path(), body, handled) == HttpError(Some(message))
  {
    CardRouteSchema();
    ServeRejects(CardProcess, CardSchema, body, handled, message);
  }

  /** A valid form whose request is answered with an error message shows
      that message. */
  lemma ErrorReplyShown(d: CardDetails, amount: int, today: Today, message: string)
    requires CardService.ValidateCard(d, today).isValid
    requires message != []
    ensures CardService.ProcessPaymentAsWritten(d, amount, today, HttpError(Some(message))).result == Err(message)
  {
  }

  /** End to end as written: the card request reaches the card route, which
      answers 400, and the client shows the schema's message. */
  lemma DashedCardFails(d: CardDetails, amount: int, today: Today, handled: Reply<Json>, i: nat)
    requires CardService.ValidateCard(d, today).isValid
    requires i < |d.number| && d.number[i] == '-'
    ensures var posted := CardService.ProcessPaymentAsWritten(d, amount, today, handled).posted.value;
      var reply := Serve(CardProcess.Path(), CardBody(posted), handled);
      CardService.ProcessPaymentAsWritten(d, amount, today, reply).result == Err("Card number must be 16 digits")
  {
    var message := "Card number must be 16 digits";
    DashedRequestRejected(d, amount, today, handled, i);
    var posted := CardService.ProcessPaymentAsWritten(d, amount, today, handled).posted.value;
    CardRouteRejects(CardBody(posted), handled, message);
    assert |message| > 0;
    ErrorReplyShown(d, amount, today, message);
  }

  /** The same through the form: submitting a valid card whose number has a
      dash, with the card route answering the posted body, ends with the
      schema's message shown and no success. */
  lemma DashedCardSubmitShowsError(phoneNumber: string, amount: int, d: CardDetails, today: Today,
                                   initiateReply: Reply<Json>, handled: Reply<Json>, i: nat)
    requires CardService.ValidateCard(d, today).isValid
    requires i < |d.number| && d.number[i] == '-'
    ensures var posted := CardService.CardRequest(d.(number := RemoveWhitespace(d.number)), amount);
      var r := PaymentForm.HandleSubmit("card", phoneNumber, amount, d, today, initiateReply,
                                        Serve(CardProcess.Path(), CardBody(posted), handled));
      !r.success && r.error == "Card number must be 16 digits"
  {
    var message := "Card number must be 16 digits";
    DashedRequestRejected(d, amount, today, handled, i);
    var posted := CardService.ProcessPaymentAsWritten(d, amount, today, handled).posted.value;
    CardRouteRejects(CardBody(posted), handled, message);
    assert |message| > 0;
  }

  /** With the corrected cleaning, a form that passes client validation and
      a positive amount make a body the card schema accepts. */
  lemma CleanedRequestAccepted(d: CardDetails, amount: int, today: Today, reply: Reply<Json>)
    requires CardService.ValidateCard(d, today).isValid
    requires amount > 0
    ensures var posted := CardService.ProcessPayment(d, amount, today, reply).posted;
      posted.Some? && Accepts(CardSchema, CardBody(posted.value))
  {
    assert CardService.Passes(CardService.ExpiryField, d, today);
    assert CardService.Passes(CardService.CvcField, d, today);
    assert CardService.Passes(CardService.NameField, d, today);
    assert IsExpiryPattern(d.expiry);
    assert d.name != [] by {
      assert JsLength(Trim(d.name)) >= 3;
    }
    var posted := CardService.ProcessPayment(d, amount, today, reply).posted.value;
    assert IsSixteenDigits(posted.details.number);
    CardBodyAccepted(posted);
  }

  // ---------------------------------------------------------------------
  // Mobile-money requests against the mobile schema

  /** The initiate body the services post passes the server's schema
      exactly when the formatted number is 254 and nine digits and the
      amount is positive. */
  lemma InitiateRequestAccepted(provider: MobileServices.Provider, phoneNumber: string, amount: int)
    ensures Accepts(MobileSchema, MobileServices.InitiateRequest(provider, phoneNumber, amount).body)
        <==> IsKenyanPhone(FormatPhoneNumber(phoneNumber)) && amount > 0
  {
    var body := MobileServices.InitiateRequest(provider, phoneNumber, amount).body;
    MobileSchemaAccepts(body);
    assert Lookup(body.members, "phoneNumber") == Some(JString(FormatPhoneNumber(phoneNumber)));
    assert Lookup(body.members, "amount") == Some(JNumber(amount));
    assert KeysDeclared(body.members, ["phoneNumber", "amount"]) by {
      assert body.members[0].0 == ["phoneNumber", "amount"][0];
      assert body.members[1].0 == ["phoneNumber", "amount"][1];
    }
  }
}

=== FILE: luhn.dfy ===
/** The Luhn check-digit test of ISO/IEC 7812-1, Annex B, and the JavaScript
    loop that the card code uses to compute it. */
module Luhn {
  import opened Common
  import opened Text

  /** What one digit adds to the sum: itself, or when doubled its double
      with 9 taken off once the double exceeds 9 (the sum of its digits). */
  function Contribution(d: nat, doubled: bool): (v: nat)
    requires d < 10
    ensures v < 10
    ensures !doubled ==> v == d
    ensures doubled ==> v == 2 * d % 10 + 2 * d / 10
  {
    if !doubled then d else if 2 * d > 9 then 2 * d - 9 else 2 * d
  }

  /** Reference sum: the digit at distance k from the right end (k = 0 for
      the rightmost digit) is doubled exactly when k is odd. */
  function WeightedSum(s: string): nat
    requires AllDigits(s)
  {
    if |s| == 0 then 0
    else Contribution(DigitValue(s[0]), (|s| - 1) % 2 == 1) + WeightedSum(s[1..])
  }

  /** A string of digits passes the Luhn test when its weighted sum is a
      multiple of 10; anything with a non-digit fails. */
  predicate LuhnValid(s: string) {
    AllDigits(s) && WeightedSum(s) % 10 == 0
  }

  /** `parseInt(cardNumber.charAt(i))`, doubled with 9 taken off when
      `isEven` holds; `None` stands for NaN. */
  function LoopDigit(c: char, isEven: bool): Option<int> {
    match ParseInt([c])
    case None => None
    case Some(d) => if isEven then (if d * 2 > 9 then Some(d * 2 - 9) else Some(d * 2)) else Some(d)
  }

  /** A digit adds its contribution; any other character makes the sum NaN. */
  lemma LoopDigitValue(c: char, isEven: bool)
    ensures LoopDigit(c, isEven) == if IsDigit(c) then Some(Contribution(DigitValue(c), isEven) as int) else None
  {
    ParseIntOfChar(c);
  }

  /** `sum += digit`, where NaN on either side makes the sum NaN. */
  function AddDigit(sum: Option<int>, digit: Option<int>): (r: Option<int>)
    ensures r.Some? <==> sum.Some? && digit.Some?
  {
    if sum.Some? && digit.Some? then Some(sum.value + digit.value) else None
  }

  /** The body of the source loop `for (i = length - 1; i >= 0; i--)`, run
      from index `i` down to 0 with the current `isEven` flag and `sum`.
      `None` stands for a NaN sum, which every later addition keeps NaN. */
  function LoopFrom(s: string, i: int, isEven: bool, sum: Option<int>): Option<int>
    requires -1 <= i < |s|
    decreases i + 1
  {
    if i < 0 then sum
    else LoopFrom(s, i - 1, !isEven, AddDigit(sum, LoopDigit(s[i], isEven)))
  }

  /** The reference sum of the suffix from `j`, or NaN when it holds a
      non-digit. */
  function SuffixSum(s: string, j: nat): Option<int>
    requires j <= |s|
  {
    if AllDigits(s[j..]) then Some(WeightedSum(s[j..]) as int) else None
  }

  /** The loop keeps `sum` equal to the reference sum of the suffix it has
      scanned, or NaN once that suffix holds a non-digit. */
  lemma {:induction false} LoopComputesWeightedSum(s: string, i: int, isEven: bool, sum: Option<int>)
    requires -1 <= i < |s|
    requires isEven == ((|s| - 1 - i) % 2 == 1)
    requires sum == SuffixSum(s, i + 1)
    ensures LoopFrom(s, i, isEven, sum) == if AllDigits(s) then Some(WeightedSum(s) as int) else None
    decreases i + 1
  {
    if i < 0 {
      assert s[i + 1..] == s;
    } else {
      LoopStep(s, i, isEven);
      LoopComputesWeightedSum(s, i - 1, !isEven, AddDigit(sum, LoopDigit(s[i], isEven)));
    }
  }

  /** One turn of the loop extends the scanned suffix by one character. */
  lemma LoopStep(s: string, i: nat, isEven: bool)
    requires i < |s| && isEven == ((|s| - 1 - i) % 2 == 1)
    ensures AddDigit(SuffixSum(s, i + 1), LoopDigit(s[i], isEven)) == SuffixSum(s, i)
  {
    LoopDigitValue(s[i], isEven);
    SuffixStep(s, i);
  }

  /** The suffix from `i` is its first digit ahead of the suffix from `i + 1`. */
  lemma SuffixStep(s: string, i: nat)
    requires i < |s|
    ensures AllDigits(s[i..]) <==> IsDigit(s[i]) && AllDigits(s[i + 1..])
    ensures AllDigits(s[i..]) ==>
      WeightedSum(s[i..]) == Contribution(DigitValue(s[i]), (|s| - 1 - i) % 2 == 1) + WeightedSum(s[i + 1..])
  {
    var suffix := s[i..];
    assert suffix[1..] == s[i + 1..];
    assert suffix[0] == s[i];
    if !IsDigit(s[i]) {
      assert !IsDigit(suffix[0]);
    }
  }

  /** `validateCard(cardNumber)` of the card API, and its textual copy
      `card.validateCard` of the frontend payment-method table: the Luhn
      loop over the raw string, then `sum % 10 === 0` (false for NaN). */
  function RawValidate(cardNumber: string): (valid: bool)
    ensures valid <==> LuhnValid(cardNumber)
  {
    assert cardNumber[|cardNumber|..] == [];
    LoopComputesWeightedSum(cardNumber, |cardNumber| - 1, false, Some(0));
    var sum := LoopFrom(cardNumber, |cardNumber| - 1, false, Some(0));
    sum.Some? && sum.value % 10 == 0
  }

  /** The loop accepts the empty string (the sum stays 0) and rejects every
      string that holds a non-digit (the sum becomes NaN). */
  lemma RawValidateEdgeCases(s: string)
    ensures RawValidate([])
    ensures (exists i :: 0 <= i < |s| && !IsDigit(s[i])) ==> !RawValidate(s)
  {
  }

  /** Replacing one digit changes the weighted sum by exactly the change in
      that digit's contribution. */
  lemma {:induction false} WeightedSumUpdate(s: string, i: nat, c: char)
    requires AllDigits(s) && i < |s| && IsDigit(c)
    ensures AllDigits(s[i := c])
    ensures WeightedSum(s[i := c]) as int - WeightedSum(s) as int
         == Contribution(DigitValue(c), (|s| - 1 - i) % 2 == 1) as int
          - Contribution(DigitValue(s[i]), (|s| - 1 - i) % 2 == 1) as int
  {
    var t := s[i := c];
    assert AllDigits(t) by {
      forall j | 0 <= j < |t| ensures IsDigit(t[j]) {
        if j != i { assert t[j] == s[j]; }
      }
    }
    if i == 0 {
      assert t[1..] == s[1..];
    } else {
      assert t[1..] == s[1..][i - 1 := c];
      WeightedSumUpdate(s[1..], i - 1, c);
    }
  }

  /** Distinct digits contribute distinct amounts, doubled or not. */
  lemma ContributionInjective(d: nat, e: nat, doubled: bool)
    requires d < 10 && e < 10 && d != e
    ensures Contribution(d, doubled) != Contribution(e, doubled)
  {
  }

  /** The Luhn test catches every single mistyped digit: changing one digit
      of a valid number to a different digit makes it invalid. */
  lemma SingleDigitErrorDetected(s: string, i: nat, c: char)
    requires LuhnValid(s) && i < |s| && IsDigit(c) && c != s[i]
    ensures !LuhnValid(s[i := c])
  {
    var doubled := (|s| - 1 - i) % 2 == 1;
    WeightedSumUpdate(s, i, c);
    assert DigitValue(c) != DigitValue(s[i]);
    ContributionInjective(DigitValue(c), DigitValue(s[i]), doubled);
    var delta := Contribution(DigitValue(c), doubled) as int - Contribution(DigitValue(s[i]), doubled) as int;
    NonzeroShiftLeavesMultipleOfTen(WeightedSum(s), delta);
  }

  lemma NonzeroShiftLeavesMultipleOfTen(a: int, delta: int)
    requires a % 10 == 0 && -10 < delta < 10 && delta != 0
    ensures (a + delta) % 10 != 0
  {
    var q := a / 10;
    assert a == 10 * q;
    if delta > 0 {
      assert a + delta == 10 * q + delta;
    } else {
      assert a + delta == 10 * (q - 1) + (10 + delta);
    }
  }

  /** Two leading digits ahead of an even-length tail: the first is doubled. */
  lemma PairStep(a: char, b: char, tail: string)
    requires IsDigit(a) && IsDigit(b) && AllDigits(tail) && |tail| % 2 == 0
    ensures AllDigits([a, b] + tail)
    ensures WeightedSum([a, b] + tail)
         == Contribution(DigitValue(a), true) + Contribution(DigitValue(b), false) + WeightedSum(tail)
  {
    var s := [a, b] + tail;
    assert AllDigits(s) by {
      forall i | 0 <= i < |s| ensures IsDigit(s[i]) {
        if i >= 2 { assert s[i] == tail[i - 2]; }
      }
    }
    var rest := [b] + tail;
    assert s[1..] == rest;
    assert rest[1..] == tail;
    assert (|s| - 1) % 2 == 1;
    assert (|rest| - 1) % 2 == 0;
    assert WeightedSum(rest) == Contribution(DigitValue(b), false) + WeightedSum(tail);
  }

  /** `"42"` repeated `n` times: the shape of the test number 4242...42. */
  function FourTwos(n: nat): (s: string)
    ensures |s| == 2 * n
  {
    seq(2 * n, i => if i % 2 == 0 then '4' else '2')
  }

  lemma FourTwosStep(n: nat)
    requires n > 0
    ensures FourTwos(n) == ['4', '2'] + FourTwos(n - 1)
  {
    var s, t := FourTwos(n), ['4', '2'] + FourTwos(n - 1);
    forall i | 0 <= i < |s| ensures s[i] == t[i] {
      if i >= 2 {
        assert t[i] == FourTwos(n - 1)[i - 2];
        assert (i - 2) % 2 == i % 2;
      }
    }
  }

  /** Each pair "42" adds 8 + 2 to the sum, so every such string passes. */
  lemma {:induction false} FourTwosValid(n: nat)
    ensures AllDigits(FourTwos(n)) && WeightedSum(FourTwos(n)) == 10 * n
    ensures LuhnValid(FourTwos(n))
  {
    if n > 0 {
      FourTwosValid(n - 1);
      FourTwosStep(n);
      PairStep('4', '2', FourTwos(n - 1));
    }
  }

  /** The worked examples of the test: 4242424242424242 passes and
      4242424242424241 fails. */
  lemma Examples()
    ensures LuhnValid("4242424242424242")
    ensures !LuhnValid("4242424242424241")
  {
    TestNumbers("4242424242424242", "4242424242424241");
  }

  /** The two test numbers, named so that the proof works on them as
      values rather than literals. */
  lemma TestNumbers(good: string, bad: string)
    requires good == "4242424242424242" && bad == "4242424242424241"
    ensures LuhnValid(good) && !LuhnValid(bad)
  {
    GoodTestNumber(good);
    assert bad == good[15 := '1'];
    SingleDigitErrorDetected(good, 15, '1');
  }

  lemma GoodTestNumber(good: string)
    requires good == "4242424242424242"
    ensures good == FourTwos(8) && LuhnValid(good)
  {
    TestNumberShape(good);
    FourTwosValid(8);
  }

  lemma TestNumberShape(good: string)
    requires good == "4242424242424242"
    ensures good == FourTwos(8)
  {
    assert FourTwos(8) == ['4', '2', '4', '2', '4', '2', '4', '2', '4', '2', '4', '2', '4', '2', '4', '2'];
  }
}

=== FILE: mobile_services.dfy ===
/** The M-Pesa and Airtel client services: the requests they send, how they
    read the server's reply, and the messages they throw. The reply is a
    parameter. */
module MobileServices {
  import opened Common
  import opened PaymentValidation
  import opened Phone
  import opened Server

  datatype Provider = Mpesa | Airtel {
    function Name(): string {
      match this
      case Mpesa => "mpesa"
      case Airtel => "airtel"
    }

    function InitiateEndpoint(): Endpoint {
      match this
      case Mpesa => MpesaInitiate
      case Airtel => AirtelInitiate
    }

    /** The provider's confirmation route. */
    function ConfirmEndpoint(): Endpoint {
      match this
      case Mpesa => MpesaConfirm
      case Airtel => AirtelConfirm
    }
  }

  /** A POST: path under the API base and JSON body. */
  datatype Post = Post(path: string, body: Json)

  // ---------------------------------------------------------------------
  // initiatePayment

  /** `initiatePayment(phoneNumber, amount)`: the formatted number and the
      amount go to the provider's initiate route. */
  function InitiateRequest(provider: Provider, phoneNumber: string, amount: int): (p: Post)
    ensures Route(p.path) == Some(provider.InitiateEndpoint())
    ensures p.body == JObject([("phoneNumber", JString(FormatPhoneNumber(phoneNumber))), ("amount", JNumber(amount))])
  {
    RouteOfPath(provider.InitiateEndpoint());
    Post(provider.InitiateEndpoint().Path(),
         JObject([("phoneNumber", JString(FormatPhoneNumber(phoneNumber))), ("amount", JNumber(amount))]))
  }

  /** `{ success: true, checkoutRequestID }` */
  datatype MpesaStarted = MpesaStarted(success: bool, checkoutRequestID: Option<Json>)

  /** The M-Pesa reply handling: the id is read off the reply body; an HTTP
      error gives the server's `error` string or 'M-Pesa payment failed'. */
  function MpesaInitiateResult(reply: Reply<Json>): (r: Outcome<MpesaStarted>)
    ensures r.Ok? <==> reply.Replied? && !reply.data.JNull?
    ensures r.Ok? ==> r.value.success
    ensures r.Ok? ==> r.value.checkoutRequestID == OptionOf(Get(Value(reply.data), "checkoutRequestID"))
    ensures reply.Replied? && reply.data.JNull? ==> r == Err("M-Pesa payment failed")
    ensures !reply.Replied? ==> r == Err(ErrorMessage(reply, "M-Pesa payment failed"))
  {
    if reply.Replied? then
      var id := Get(Value(reply.data), "checkoutRequestID");
      if id.Throws? then Err("M-Pesa payment failed")
      else Ok(MpesaStarted(true, OptionOf(id)))
    else Err(ErrorMessage(reply, "M-Pesa payment failed"))
  }

  /** `{ success: true, transaction, reference }` */
  datatype AirtelStarted = AirtelStarted(success: bool, transaction: Json, reference: Option<Json>)

  /** The Airtel reply handling: `transaction.reference` is read off the
      reply body, which throws when `transaction` is missing or null. */
  function AirtelInitiateResult(reply: Reply<Json>): (r: Outcome<AirtelStarted>)
    ensures r.Ok? <==> reply.Replied? && Get(Value(reply.data), "transaction").Value?
                       && !Get(Value(reply.data), "transaction").v.JNull?
    ensures r.Ok? ==> r.value.success
    ensures r.Ok? ==> reply.Replied? && Get(Value(reply.data), "transaction") == Value(r.value.transaction)
    ensures r.Ok? ==> !r.value.transaction.JNull?
    ensures r.Ok? ==> r.value.reference == OptionOf(Get(Value(r.value.transaction), "reference"))
    ensures reply.Replied? && r.Err? ==> r == Err("Airtel Money payment failed")
    ensures !reply.Replied? ==> r == Err(ErrorMessage(reply, "Airtel Money payment failed"))
  {
    if reply.Replied? then
      var transaction := Get(Value(reply.data), "transaction");
      var reference := Get(transaction, "reference");
      if reference.Throws? then Err("Airtel Money payment failed")
      else Ok(AirtelStarted(true, transaction.v, OptionOf(reference)))
    else Err(ErrorMessage(reply, "Airtel Money payment failed"))
  }

  /** A reply whose transaction object carries a reference starts a payment
      with that reference. */
  lemma AirtelReferenceEchoed(members: seq<(string, Json)>, transaction: seq<(string, Json)>, reference: Json)
    requires Lookup(members, "transaction") == Some(JObject(transaction))
    requires Lookup(transaction, "reference") == Some(reference)
    ensures AirtelInitiateResult(Replied(JObject(members))) == Ok(AirtelStarted(true, JObject(transaction), Some(reference)))
  {
  }

  // ---------------------------------------------------------------------
  // checkPaymentStatus

  /** `{ success: true, status }` */
  datatype StatusChecked = StatusChecked(success: bool, status: Option<Json>)

  /** The status reply handling: any reply that arrives yields
      `success: true`, whatever its `status` says. */
  function StatusResult(reply: Reply<Json>): (r: Outcome<StatusChecked>)
    ensures r.Ok? <==> reply.Replied? && !reply.data.JNull?
    ensures r.Ok? ==> r.value.success && r.value.status == OptionOf(Get(Value(reply.data), "status"))
    ensures reply.Replied? && reply.data.JNull? ==> r == Err("Failed to check payment status")
    ensures !reply.Replied? ==> r == Err(ErrorMessage(reply, "Failed to check payment status"))
  {
    if reply.Replied? then
      var status := Get(Value(reply.data), "status");
      if status.Throws? then Err("Failed to check payment status")
      else Ok(StatusChecked(true, OptionOf(status)))
    else Err(ErrorMessage(reply, "Failed to check payment status"))
  }

  /** The confirmation body `{ provider, transactionId }`; an `undefined`
      id is left out by `JSON.stringify`. */
  function StatusBody(provider: Provider, transactionId: Option<Json>): Json {
    match transactionId
    case Some(id) => JObject([("provider", JString(provider.Name())), ("transactionId", id)])
    case None => JObject([("provider", JString(provider.Name()))])
  }

  /** The status request as written: both services post to `/mobile/confirm`. */
  function StatusRequestAsWritten(provider: Provider, transactionId: Option<Json>): Post {
    Post("/mobile/confirm", StatusBody(provider, transactionId))
  }

  /** The status request to the confirmation route of the provider. */
  function StatusRequest(provider: Provider, transactionId: Option<Json>): Post {
    Post(provider.ConfirmEndpoint().Path(), StatusBody(provider, transactionId))
  }

  /** `checkPaymentStatus` end to end as written: the request goes through
      the server's routing, and `handled` is what the confirmation controller
      would answer. */
  function CheckPaymentStatusAsWritten(provider: Provider, transactionId: Option<Json>, handled: Reply<Json>)
    : (r: Outcome<StatusChecked>)
    ensures r == Err("Route not found")
  {
    var request := StatusRequestAsWritten(provider, transactionId);
    MobileConfirmUnrouted();
    var reply := Serve(request.path, request.body, handled);
    assert reply == HttpError(Some("Route not found"));
    StatusResult(reply)
  }

  /** No route of the server is registered at `/mobile/confirm`. */
  lemma MobileConfirmUnrouted()
    ensures Route("/mobile/confirm").None?
  {
  }

  /** `checkPaymentStatus` posting to the provider's confirmation route: a
      string id reaches the controller, whose every arriving reply counts as
      success. */
  function CheckPaymentStatus(provider: Provider, transactionId: Option<Json>, handled: Reply<Json>)
    : (r: Outcome<StatusChecked>)
    ensures transactionId.Some? && transactionId.value.JString? && transactionId.value.str != []
            ==> r == StatusResult(handled)
    ensures transactionId.None? ==> r == Err(Label("transactionId") + " is required")
  {
    var request := StatusRequest(provider, transactionId);
    assert provider.ConfirmEndpoint().Schema() == ConfirmationSchema;
    ServeOnRoute(provider.ConfirmEndpoint(), request.body, handled);
    StatusBodyChecked(provider, transactionId);
    StatusResult(Serve(request.path, request.body, handled))
  }

  lemma ProviderNames(provider: Provider)
    ensures provider.Name() in ["mpesa", "airtel"]
    ensures IsProvider(provider.Name())
  {
    if provider.Mpesa? {
      assert ["mpesa", "airtel"][0] == provider.Name();
    } else {
      assert ["mpesa", "airtel"][1] == provider.Name();
    }
  }

  /** What the confirmation schema makes of the body the services send. */
  lemma StatusBodyChecked(provider: Provider, transactionId: Option<Json>)
    ensures transactionId.Some? && transactionId.value.JString? && transactionId.value.str != []
            ==> Accepts(ConfirmationSchema, StatusBody(provider, transactionId))
    ensures transactionId.None?
            ==> BodyError(ConfirmationSchema, StatusBody(provider, transactionId)) == Some(Label("transactionId") + " is required")
  {
    if transactionId.Some? {
      StatusBodyWithId(provider, transactionId.value);
    } else {
      StatusBodyWithoutId(provider);
    }
  }

  lemma StatusBodyWithId(provider: Provider, id: Json)
    ensures id.JString? && id.str != [] ==> Accepts(ConfirmationSchema, StatusBody(provider, Some(id)))
  {
    var body := StatusBody(provider, Some(id));
    var members := body.members;
    ProviderNames(provider);
    assert "provider" != "transactionId";
    assert Lookup(members, "provider") == Some(JString(provider.Name()));
    assert Lookup(members, "transactionId") == Some(id);
    assert KeysDeclared(members, ["provider", "transactionId"]) by {
      assert members[0].0 == ["provider", "transactionId"][0];
      assert members[1].0 == ["provider", "transactionId"][1];
    }
    ConfirmationSchemaAccepts(body);
  }

  lemma StatusBodyWithoutId(provider: Provider)
    ensures BodyError(ConfirmationSchema, StatusBody(provider, None)) == Some(Label("transactionId") + " is required")
  {
    var body := StatusBody(provider, None);
    var members := body.members;
    ProviderNames(provider);
    var check := (e: Entry) => EntryError(e, members);
    assert "provider" != "transactionId";
    assert Lookup(members, "provider") == Some(JString(provider.Name()));
    assert check(ConfirmationSchema[0]).None?;
    assert Lookup(members, "transactionId").None?;
    assert "" + "transactionId" == "transactionId";
    assert check(ConfirmationSchema[1]) == Some(Label("transactionId") + " is required");
    FirstErrorAt(ConfirmationSchema, check, 1);
  }
}

=== FILE: mpesa_api.dfy ===
/** The M-Pesa adapter's request derivation: the 14-digit timestamp cut from
    an ISO time string, and the `Password` that is the Base64 of the UTF-8
    bytes of shortcode, passkey and timestamp, as the STK push and the STK
    query both compute them. The ISO string `new Date().toISOString()`
    would give is a parameter. */
module MpesaApi {
  import opened Common
  import opened Text
  import Utf8
  import Base64

  /** `iso.replace(/[^0-9]/g, '').slice(0, -3)`: the digits of the string
      without the last three, or nothing when there are fewer than three. */
  function Timestamp(iso: string): (t: string)
    ensures AllDigits(t)
    ensures t <= KeepDigits(iso)
    ensures |t| == if |KeepDigits(iso)| < 3 then 0 else |KeepDigits(iso)| - 3
  {
    var digits := KeepDigits(iso);
    if |digits| < 3 then [] else digits[..|digits| - 3]
  }

  /** The shape `YYYY-MM-DDTHH:mm:ss.sssZ` of `Date.prototype.toISOString`
      for years 0 to 9999. */
  predicate IsIsoString(iso: string) {
    && |iso| == 24
    && iso[4] == '-' && iso[7] == '-' && iso[10] == 'T' && iso[13] == ':'
    && iso[16] == ':' && iso[19] == '.' && iso[23] == 'Z'
    && AllDigits(iso[0..4]) && AllDigits(iso[5..7]) && AllDigits(iso[8..10])
    && AllDigits(iso[11..13]) && AllDigits(iso[14..16]) && AllDigits(iso[17..19])
    && AllDigits(iso[20..23])
  }

  /** Deleting the non-digits of a suffix that starts with a run of digits
      and one separator. */
  lemma DigitsThenSeparator(s: string, start: nat, k: nat)
    requires start + k < |s| && AllDigits(s[start..start + k]) && !IsDigit(s[start + k])
    ensures KeepDigits(s[start..]) == s[start..start + k] + KeepDigits(s[start + k + 1..])
  {
    var t := s[start..];
    assert t == t[..k] + t[k..];
    assert t[..k] == s[start..start + k];
    FilterConcat(t[..k], t[k..], IsDigit);
    FilterKeepsAll(t[..k], IsDigit);
    assert t[k..][1..] == s[start + k + 1..];
  }

  /** The digits of an ISO string are its seventeen date, time and
      millisecond digits in order. */
  lemma IsoDigits(iso: string)
    requires IsIsoString(iso)
    ensures KeepDigits(iso)
         == iso[0..4] + iso[5..7] + iso[8..10] + iso[11..13] + iso[14..16] + iso[17..19] + iso[20..23]
  {
    assert iso[0..] == iso;
    DigitsThenSeparator(iso, 0, 4);
    DigitsThenSeparator(iso, 5, 2);
    DigitsThenSeparator(iso, 8, 2);
    DigitsThenSeparator(iso, 11, 2);
    DigitsThenSeparator(iso, 14, 2);
    DigitsThenSeparator(iso, 17, 2);
    DigitsThenSeparator(iso, 20, 3);
    assert iso[24..] == [];
  }

  /** On an ISO string the timestamp is `YYYYMMDDHHmmss`: the milliseconds
      are what the slice drops. */
  lemma IsoTimestamp(iso: string)
    requires IsIsoString(iso)
    ensures Timestamp(iso) == iso[0..4] + iso[5..7] + iso[8..10] + iso[11..13] + iso[14..16] + iso[17..19]
    ensures |Timestamp(iso)| == 14
  {
    IsoDigits(iso);
    var date := iso[0..4] + iso[5..7] + iso[8..10] + iso[11..13] + iso[14..16] + iso[17..19];
    assert KeepDigits(iso) == date + iso[20..23];
    assert (date + iso[20..23])[..|date|] == date;
  }

  lemma IsoTimestampLength(iso: string)
    ensures IsIsoString(iso) ==> |Timestamp(iso)| == 14
  {
    if IsIsoString(iso) {
      IsoTimestamp(iso);
    }
  }

  /** `Buffer.from(shortcode + passkey + timestamp).toString('base64')` */
  function Password(shortcode: string, passkey: string, timestamp: string): string {
    Base64.Encode(Utf8.Encode(shortcode + passkey + timestamp))
  }

  /** Reading a password back: Base64, then UTF-8. */
  function DecodePassword(password: string): Option<string> {
    match Base64.Decode(password)
    case None => None
    case Some(bytes) => Utf8.Decode(bytes)
  }

  /** The password carries exactly the three strings it was made of. */
  lemma PasswordDecodes(shortcode: string, passkey: string, timestamp: string)
    ensures DecodePassword(Password(shortcode, passkey, timestamp)) == Some(shortcode + passkey + timestamp)
  {
    var bytes := Utf8.Encode(shortcode + passkey + timestamp);
    Base64.DecodeEncode(bytes);
    Utf8.DecodeEncode(shortcode + passkey + timestamp);
  }

  /** The shortcode and passkey the adapter reads from its environment. */
  datatype Credentials = Credentials(shortcode: string, passkey: string)

  /** The body posted to `/mpesa/stkpush/v1/processrequest`; the phone
      number and amount are sent as received. */
  datatype StkPush<P, A> = StkPush(
    businessShortCode: string, password: string, timestamp: string, transactionType: string,
    amount: A, partyA: P, partyB: string, phoneNumber: P, callBackUrl: string,
    accountReference: string, transactionDesc: string)

  /** `initiateSTKPush(phoneNumber, amount)`'s request body; `baseUrl` is the
      environment's `BASE_URL`. */
  function StkPushRequest<P, A>(c: Credentials, baseUrl: string, phoneNumber: P, amount: A, iso: string)
    : (r: StkPush<P, A>)
    ensures DecodePassword(r.password) == Some(c.shortcode + c.passkey + r.timestamp)
    ensures IsIsoString(iso) ==> |r.timestamp| == 14 && AllDigits(r.timestamp)
    ensures r.businessShortCode == c.shortcode && r.partyB == c.shortcode
    ensures r.partyA == phoneNumber && r.phoneNumber == phoneNumber && r.amount == amount
    ensures r.transactionType == "CustomerPayBillOnline"
    ensures r.callBackUrl == baseUrl + "/api/mpesa/callback"
    ensures r.accountReference == "Payment System" && r.transactionDesc == "Payment for services"
  {
    var timestamp := Timestamp(iso);
    PasswordDecodes(c.shortcode, c.passkey, timestamp);
    IsoTimestampLength(iso);
    StkPush(c.shortcode, Password(c.shortcode, c.passkey, timestamp), timestamp, "CustomerPayBillOnline",
            amount, phoneNumber, c.shortcode, phoneNumber, baseUrl + "/api/mpesa/callback",
            "Payment System", "Payment for services")
  }

  /** The body posted to `/mpesa/stkpushquery/v1/query`. */
  datatype StkQuery<C> = StkQuery(businessShortCode: string, password: string, timestamp: string, checkoutRequestId: C)

  /** `checkTransactionStatus(checkoutRequestID)`'s request body. */
  function StkQueryRequest<C>(c: Credentials, checkoutRequestId: C, iso: string): (r: StkQuery<C>)
    ensures DecodePassword(r.password) == Some(c.shortcode + c.passkey + r.timestamp)
    ensures IsIsoString(iso) ==> |r.timestamp| == 14 && AllDigits(r.timestamp)
    ensures r.businessShortCode == c.shortcode && r.checkoutRequestId == checkoutRequestId
  {
    var timestamp := Timestamp(iso);
    PasswordDecodes(c.shortcode, c.passkey, timestamp);
    IsoTimestampLength(iso);
    StkQuery(c.shortcode, Password(c.shortcode, c.passkey, timestamp), timestamp, checkoutRequestId)
  }

  /** The query derives its timestamp and password as the push does, afresh
      from the time of its own call: at the same second both agree, and the
      password follows the time it is sent with. */
  lemma QueryDerivesAsPush<P, A, C>(c: Credentials, baseUrl: string, phoneNumber: P, amount: A,
                                    checkoutRequestId: C, pushIso: string, queryIso: string)
    ensures var push := StkPushRequest(c, baseUrl, phoneNumber, amount, pushIso);
            var query := StkQueryRequest(c, checkoutRequestId, queryIso);
            (query.password == push.password <==> query.timestamp == push.timestamp)
  {
    var push := StkPushRequest(c, baseUrl, phoneNumber, amount, pushIso);
    var query := StkQueryRequest(c, checkoutRequestId, queryIso);
    if query.password == push.password {
      assert Some(c.shortcode + c.passkey + query.timestamp) == Some(c.shortcode + c.passkey + push.timestamp);
      assert (c.shortcode + c.passkey + query.timestamp)[|c.shortcode + c.passkey|..] == query.timestamp;
      assert (c.shortcode + c.passkey + push.timestamp)[|c.shortcode + c.passkey|..] == push.timestamp;
    }
  }
}

=== FILE: payment_form.dfy ===
/** The control logic of the payment form's `handleSubmit`: the switch on
    the selected method, the polling it starts after a mobile-money
    initiation, the card path with its client-side validation, and the
    `catch`/`finally` that set the error and clear the loading flag. The
    replies of the services' requests are parameters. */
module PaymentForm {
  import opened Common
  import opened PaymentValidation
  import opened CardPatterns
  import CardService
  import opened MobileServices
  import Poller
  import Text

  /** The status polling `handleSubmit` leaves running: the provider, and
      the id its checks send. */
  datatype StatusPoll = StatusPoll(provider: Provider, transactionId: Option<Json>)

  /** The form state when `handleSubmit` returns, the polling it started,
      and the card request it sent, if any. */
  datatype Submitted = Submitted(
    loading: bool, error: string, success: bool,
    polling: Option<StatusPoll>, cardPosted: Option<CardService.CardRequest>)

  /** `catch (err) { setError(err.message); setSuccess(false); }` and the
      `finally` that clears the loading flag. */
  function Failed(message: string, cardPosted: Option<CardService.CardRequest>): Submitted {
    Submitted(false, message, false, None, cardPosted)
  }

  /** A submit that returns normally. */
  function Finished(success: bool, polling: Option<StatusPoll>, cardPosted: Option<CardService.CardRequest>): Submitted {
    Submitted(false, "", success, polling, cardPosted)
  }

  /** The M-Pesa case: initiate, then poll with `checkoutRequestID`. */
  function SubmitMpesa(phoneNumber: string, amount: int, initiateReply: Reply<Json>): Submitted {
    match MpesaInitiateResult(initiateReply)
    case Err(message) => Failed(message, None)
    case Ok(started) =>
      if started.success then Finished(false, Some(StatusPoll(Mpesa, started.checkoutRequestID)), None)
      else Finished(false, None, None)
  }

  /** The Airtel case: initiate, then poll with `transaction.id`. */
  function SubmitAirtel(phoneNumber: string, amount: int, initiateReply: Reply<Json>): Submitted {
    match AirtelInitiateResult(initiateReply)
    case Err(message) => Failed(message, None)
    case Ok(started) =>
      if started.success then
        var id := Get(Value(started.transaction), "id");
        Finished(false, Some(StatusPoll(Airtel, OptionOf(id))), None)
      else Finished(false, None, None)
  }

  /** The card case: client validation, whose first message is thrown, then
      the card service. */
  function SubmitCard(d: CardDetails, amount: int, today: Today, cardReply: Reply<Json>): Submitted {
    var validation := CardService.ValidateCard(d, today);
    if !validation.isValid then Failed(validation.errors[0].1, None)
    else
      var processed := CardService.ProcessPaymentAsWritten(d, amount, today, cardReply);
      match processed.result
      case Err(message) => Failed(message, processed.posted)
      case Ok(paid) => Finished(paid.success, None, processed.posted)
  }

  /** `handleSubmit`: the `phoneNumber`, `amount` and card form state, the
      current date, and the replies the initiate and card requests get. */
  function HandleSubmit(selectedMethod: string, phoneNumber: string, amount: int, d: CardDetails, today: Today,
                        initiateReply: Reply<Json>, cardReply: Reply<Json>): (r: Submitted)
    ensures !r.loading
    ensures r.success ==> r.error == []
    ensures r.polling.Some? ==> r.error == [] && !r.success
    ensures r.polling.Some? <==>
      (selectedMethod == "mpesa" && MpesaInitiateResult(initiateReply).Ok?)
      || (selectedMethod == "airtel" && AirtelInitiateResult(initiateReply).Ok?)
    ensures selectedMethod == "mpesa" && r.polling.Some? ==>
      r.polling.value == StatusPoll(Mpesa, OptionOf(Get(Value(initiateReply.data), "checkoutRequestID")))
    ensures selectedMethod == "airtel" && r.polling.Some? ==>
      r.polling.value == StatusPoll(Airtel, OptionOf(Get(Get(Value(initiateReply.data), "transaction"), "id")))
    ensures selectedMethod == "mpesa" && !r.polling.Some? ==> r.error == MpesaInitiateResult(initiateReply).message
    ensures selectedMethod == "airtel" && !r.polling.Some? ==> r.error == AirtelInitiateResult(initiateReply).message
    ensures r.cardPosted.Some? ==> selectedMethod == "card" && CardService.ValidateCard(d, today).isValid
    ensures (selectedMethod == "card" && !CardService.ValidateCard(d, today).isValid) ==>
      r == Failed(CardService.ValidateCard(d, today).errors[0].0.Message(), None)
    ensures (selectedMethod == "card" && CardService.ValidateCard(d, today).isValid) ==>
      && r.cardPosted == Some(CardService.CardRequest(d.(number := Text.RemoveWhitespace(d.number)), amount))
      && (r.success <==> cardReply.Replied? && !cardReply.data.JNull?)
      && (cardReply.Replied? && cardReply.data.JNull? ==> r.error == "Card payment failed")
      && (!cardReply.Replied? ==> r.error == ErrorMessage(cardReply, "Card payment failed"))
    ensures selectedMethod != "mpesa" && selectedMethod != "airtel" && selectedMethod != "card" ==>
      r == Finished(false, None, None)
  {
    if selectedMethod == "mpesa" then SubmitMpesa(phoneNumber, amount, initiateReply)
    else if selectedMethod == "airtel" then SubmitAirtel(phoneNumber, amount, initiateReply)
    else if selectedMethod == "card" then SubmitCard(d, amount, today, cardReply)
    else Finished(false, None, None)
  }

  /** Whether a status check's result is one with `success` set. */
  predicate Reported(o: Outcome<StatusChecked>) {
    o.Ok? && o.value.success
  }

  /** Whether the k-th check reports success, with the status service that
      posts to the provider's own confirmation route. */
  predicate CheckSucceeds(poll: StatusPoll, replies: nat -> Reply<Json>, k: nat) {
    Reported(CheckPaymentStatus(poll.provider, poll.transactionId, replies(k)))
  }

  /** Whether the k-th check reports success as written, with both status
      services posting to `/mobile/confirm`. */
  predicate CheckSucceedsAsWritten(poll: StatusPoll, replies: nat -> Reply<Json>, k: nat) {
    Reported(CheckPaymentStatusAsWritten(poll.provider, poll.transactionId, replies(k)))
  }

  function PollRun(poll: StatusPoll, replies: nat -> Reply<Json>, tickWinsTie: bool): Poller.Poll {
    Poller.Polling((k: nat) => CheckSucceeds(poll, replies, k), tickWinsTie)
  }

  function PollRunAsWritten(poll: StatusPoll, replies: nat -> Reply<Json>, tickWinsTie: bool): Poller.Poll {
    Poller.Polling((k: nat) => CheckSucceedsAsWritten(poll, replies, k), tickWinsTie)
  }

  /** As written, no status check can succeed: every check fails with
      'Route not found', the interval runs until the timeout, and the form
      never shows success from polling. */
  lemma PollingAsWrittenNeverSucceeds(poll: StatusPoll, replies: nat -> Reply<Json>, tickWinsTie: bool)
    ensures !PollRunAsWritten(poll, replies, tickWinsTie).success
    ensures |PollRunAsWritten(poll, replies, tickWinsTie).checks| == Poller.TickCount(tickWinsTie)
  {
    var ok := (k: nat) => CheckSucceedsAsWritten(poll, replies, k);
    Poller.FailuresKeepPolling(ok, tickWinsTie);
  }

  /** A check with a non-empty string id succeeds exactly when its request
      gets a non-null reply body. */
  lemma CheckSucceedsOnReply(poll: StatusPoll, replies: nat -> Reply<Json>, k: nat)
    requires poll.transactionId.Some? && poll.transactionId.value.JString? && poll.transactionId.value.str != []
    ensures CheckSucceeds(poll, replies, k) <==> replies(k).Replied? && !replies(k).data.JNull?
  {
  }

  /** With a non-empty string id and the confirmation routes, polling
      succeeds exactly when some check before the timeout gets a non-null
      reply body, whatever that body says. */
  lemma PollingSucceedsOnAnyReply(poll: StatusPoll, replies: nat -> Reply<Json>, tickWinsTie: bool)
    requires poll.transactionId.Some? && poll.transactionId.value.JString? && poll.transactionId.value.str != []
    ensures PollRun(poll, replies, tickWinsTie).success <==>
      exists k: nat :: 1 <= k <= Poller.TickCount(tickWinsTie) && replies(k).Replied? && !replies(k).data.JNull?
  {
    var ok := (k: nat) => CheckSucceeds(poll, replies, k);
    Poller.PollingState(ok, tickWinsTie);
    forall k: nat ensures ok(k) <==> replies(k).Replied? && !replies(k).data.JNull? {
      CheckSucceedsOnReply(poll, replies, k);
    }
  }

  /** A missing id (`transaction.id` absent from the Airtel reply) makes every
      check fail on the server's schema, so polling never succeeds. */
  lemma PollingWithoutIdNeverSucceeds(poll: StatusPoll, replies: nat -> Reply<Json>, tickWinsTie: bool)
    requires poll.transactionId.None?
    ensures !PollRun(poll, replies, tickWinsTie).success
  {
    var ok := (k: nat) => CheckSucceeds(poll, replies, k);
    Poller.FailuresKeepPolling(ok, tickWinsTie);
  }
}

=== FILE: payment_validation.dfy ===
/** The request schemas of the server and the `validateRequest` middleware.
    A schema is a list of keys, each with a rule; validation stops at the
    first failing key, in schema order, and only then looks for keys the
    schema does not declare. Messages are the library's default messages
    (`"label" is required`, ...) unless the schema gives its own. */
module PaymentValidation {
  import opened Common
  import opened Text
  import opened CardPatterns
  import opened Phone

  /** A parsed JSON value. Objects keep their members in order;
      `JOther` is a boolean or an array. */
  datatype Json = JString(str: string) | JNumber(num: int) | JObject(members: seq<(string, Json)>) | JNull | JOther

  /** The value of the last member called `key`: `JSON.parse` keeps the
      last of repeated keys. */
  function Lookup(members: seq<(string, Json)>, key: string): (v: Option<Json>)
    ensures v.None? <==> forall i :: 0 <= i < |members| ==> members[i].0 != key
    ensures v.Some? ==> (key, v.value) in members
  {
    if |members| == 0 then None
    else if members[|members| - 1].0 == key then Some(members[|members| - 1].1)
    else Lookup(members[..|members| - 1], key)
  }

  /** The last member with the key is the one found. */
  lemma {:induction false} LookupAt(members: seq<(string, Json)>, i: nat, key: string)
    requires i < |members| && members[i].0 == key
    requires forall j :: i < j < |members| ==> members[j].0 != key
    ensures Lookup(members, key) == Some(members[i].1)
  {
    if i < |members| - 1 {
      LookupAt(members[..|members| - 1], i, key);
    }
  }

  /** Reading a property in JavaScript: it throws on `null` or `undefined`,
      is `undefined` when missing or read off a non-object, and is a value
      otherwise. */
  datatype Access = Throws | Undefined | Value(v: Json)

  function Get(a: Access, key: string): (r: Access)
    ensures r.Throws? <==> a.Throws? || a.Undefined? || (a.Value? && a.v.JNull?)
    ensures a.Value? && a.v.JObject? && Lookup(a.v.members, key).Some? ==> r == Value(Lookup(a.v.members, key).value)
  {
    if a.Throws? || a.Undefined? || a.v.JNull? then Throws
    else if a.v.JObject? && Lookup(a.v.members, key).Some? then Value(Lookup(a.v.members, key).value)
    else Undefined
  }

  function OptionOf(a: Access): Option<Json>
    requires !a.Throws?
  {
    if a.Value? then Some(a.v) else None
  }

  /** How the library writes a key path in a message: in double quotes. */
  function Label(path: string): string {
    "\"" + path + "\""
  }

  // ---------------------------------------------------------------------
  // Patterns

  /** `^[0-9]{16}$` */
  predicate IsSixteenDigits(s: string) {
    |s| == 16 && AllDigits(s)
  }

  /** `^(0[1-9]|1[0-2])\/([0-9]{2})$` */
  predicate IsExpiryPattern(s: string) {
    ExpiryShape(s) && 1 <= TwoDigitValue(s, 0) <= 12
  }

  datatype Pattern = PhonePattern | CardNumberPattern | ExpiryPattern | CvcPattern {
    predicate Matches(s: string) {
      match this
      case PhonePattern => IsKenyanPhone(s)
      case CardNumberPattern => IsSixteenDigits(s)
      case ExpiryPattern => IsExpiryPattern(s)
      case CvcPattern => IsCvc(s)
    }

    /** The schema's own `'string.pattern.base'` message. */
    function Message(): string {
      match this
      case PhonePattern => "Phone number must be in the format 254XXXXXXXXX"
      case CardNumberPattern => "Card number must be 16 digits"
      case ExpiryPattern => "Expiry date must be in the format MM/YY"
      case CvcPattern => "CVC must be 3 or 4 digits"
    }
  }

  /** No pattern matches the empty string. */
  lemma PatternsNonEmpty(p: Pattern, s: string)
    requires p.Matches(s)
    ensures |s| > 0
  {
  }

  // ---------------------------------------------------------------------
  // Rules

  /** `Joi.number().positive()`, `Joi.string()`, `Joi.string().pattern(p)`
      and `Joi.string().valid(...)`. */
  datatype Rule = PositiveNumber | PlainString | Matching(pattern: Pattern) | OneOf(options: seq<string>)

  /** `[a, b]`: the allowed values as the library lists them. */
  function ListText(options: seq<string>): string {
    if |options| == 0 then ""
    else if |options| == 1 then options[0]
    else options[0] + ", " + ListText(options[1..])
  }

  /** The error a present value gets under `rule`, if any. A value in the
      allowed list passes before any type check; a string that is empty is
      refused before its pattern is tried. */
  function RuleError(rule: Rule, quoted: string, v: Json): Option<string> {
    match rule
    case PositiveNumber =>
      if !v.JNumber? then Some(quoted + " must be a number")
      else if v.num <= 0 then Some(quoted + " must be a positive number")
      else None
    case PlainString =>
      if !v.JString? then Some(quoted + " must be a string")
      else if v.str == [] then Some(quoted + " is not allowed to be empty")
      else None
    case Matching(p) =>
      if !v.JString? then Some(quoted + " must be a string")
      else if v.str == [] then Some(quoted + " is not allowed to be empty")
      else if !p.Matches(v.str) then Some(p.Message())
      else None
    case OneOf(options) =>
      if v.JString? && v.str in options then None
      else Some(quoted + " must be one of [" + ListText(options) + "]")
  }

  /** What a present value must be to pass `rule`. */
  predicate Satisfies(rule: Rule, v: Json) {
    match rule
    case PositiveNumber => v.JNumber? && v.num > 0
    case PlainString => v.JString? && v.str != []
    case Matching(p) => v.JString? && p.Matches(v.str)
    case OneOf(options) => v.JString? && v.str in options
  }

  lemma RuleErrorNone(rule: Rule, quoted: string, v: Json)
    ensures RuleError(rule, quoted, v).None? <==> Satisfies(rule, v)
  {
    if rule.Matching? && v.JString? && rule.pattern.Matches(v.str) {
      PatternsNonEmpty(rule.pattern, v.str);
    }
  }

  /** One key of an object schema: its name, whether `.required()`, its rule. */
  datatype Field = Field(name: string, required: bool, rule: Rule)

  /** The error of one field of `members`; `prefix` is the path of the
      enclosing object, as in `cardDetails.`. */
  function FieldError(f: Field, prefix: string, members: seq<(string, Json)>): Option<string> {
    match Lookup(members, f.name)
    case None => if f.required then Some(Label(prefix + f.name) + " is required") else None
    case Some(v) => RuleError(f.rule, Label(prefix + f.name), v)
  }

  predicate FieldOk(f: Field, members: seq<(string, Json)>) {
    match Lookup(members, f.name)
    case None => !f.required
    case Some(v) => Satisfies(f.rule, v)
  }

  lemma FieldErrorNone(f: Field, prefix: string, members: seq<(string, Json)>)
    ensures FieldError(f, prefix, members).None? <==> FieldOk(f, members)
  {
    match Lookup(members, f.name)
    case None =>
    case Some(v) => RuleErrorNone(f.rule, Label(prefix + f.name), v);
  }

  // ---------------------------------------------------------------------
  // First error

  /** The first error that `check` finds in `xs`, in order. */
  function FirstError<X>(xs: seq<X>, check: X -> Option<string>): Option<string> {
    if |xs| == 0 then None
    else if check(xs[0]).Some? then check(xs[0])
    else FirstError(xs[1..], check)
  }

  lemma {:induction false} FirstErrorNone<X>(xs: seq<X>, check: X -> Option<string>)
    ensures FirstError(xs, check).None? <==> forall i :: 0 <= i < |xs| ==> check(xs[i]).None?
  {
    if |xs| > 0 {
      FirstErrorNone(xs[1..], check);
      assert forall i :: 1 <= i < |xs| ==> xs[i] == xs[1..][i - 1];
    }
  }

  /** The error reported is that of an element whose predecessors all pass. */
  lemma {:induction false} FirstErrorIsFirst<X>(xs: seq<X>, check: X -> Option<string>)
    requires FirstError(xs, check).Some?
    ensures exists i :: 0 <= i < |xs| && check(xs[i]) == FirstError(xs, check)
                        && forall j :: 0 <= j < i ==> check(xs[j]).None?
  {
    if check(xs[0]).None? {
      FirstErrorIsFirst(xs[1..], check);
      var i :| 0 <= i < |xs| - 1 && check(xs[1..][i]) == FirstError(xs[1..], check)
                && forall j :: 0 <= j < i ==> check(xs[1..][j]).None?;
      assert check(xs[i + 1]) == FirstError(xs, check);
      forall j | 0 <= j < i + 1 ensures check(xs[j]).None? {
        if j > 0 { assert xs[j] == xs[1..][j - 1]; }
      }
    } else {
      assert check(xs[0]) == FirstError(xs, check);
    }
  }

  /** An element that fails after passing predecessors is the one reported. */
  lemma {:induction false} FirstErrorAt<X>(xs: seq<X>, check: X -> Option<string>, i: nat)
    requires i < |xs| && check(xs[i]).Some?
    requires forall j :: 0 <= j < i ==> check(xs[j]).None?
    ensures FirstError(xs, check) == check(xs[i])
  {
    if i > 0 {
      assert forall j :: 0 <= j < i - 1 ==> xs[1..][j] == xs[j + 1];
      FirstErrorAt(xs[1..], check, i - 1);
    }
  }

  function OrElse(a: Option<string>, b: Option<string>): Option<string> {
    if a.Some? then a else b
  }

  /** An array index, as ECMAScript orders property keys: the canonical
      decimal text of an integer below 2^32 - 1 (`"0"`, or digits without a
      leading zero). `Object.keys` lists these keys first, in ascending
      numeric order, and every other key after them in creation order. */
  predicate IsArrayIndex(key: string) {
    && |key| > 0 && AllDigits(key)
    && (key == "0" || key[0] != '0')
    && DecimalValue(key) < 0xFFFF_FFFF
  }

  /** An undeclared key that `Object.keys` lists before the other keys. */
  predicate UndeclaredIndex(key: string, declared: seq<string>) {
    key !in declared && IsArrayIndex(key)
  }

  /** The undeclared array-index key of least numeric value, if any. */
  function SmallestUndeclaredIndex(members: seq<(string, Json)>, declared: seq<string>): (k: Option<string>)
    ensures k.None? <==> forall i :: 0 <= i < |members| ==> !UndeclaredIndex(members[i].0, declared)
    ensures k.Some? ==> UndeclaredIndex(k.value, declared) && exists i :: 0 <= i < |members| && members[i].0 == k.value
    ensures k.Some? ==> forall i :: 0 <= i < |members| && UndeclaredIndex(members[i].0, declared) ==>
                          DecimalValue(k.value) <= DecimalValue(members[i].0)
  {
    if |members| == 0 then None
    else
      var rest := SmallestUndeclaredIndex(members[1..], declared);
      var key := members[0].0;
      assert forall i :: 1 <= i < |members| ==> members[i] == members[1..][i - 1];
      if UndeclaredIndex(key, declared) && (rest.None? || DecimalValue(key) <= DecimalValue(rest.value)) then Some(key)
      else rest
  }

  function NotAllowed(key: string, prefix: string): string {
    Label(prefix + key) + " is not allowed"
  }

  /** `"path" is not allowed` for the first undeclared key in `Object.keys`
      order. The library collects the undeclared keys from `Object.keys` of
      the value and reports the first. */
  function UnknownKeyError(members: seq<(string, Json)>, declared: seq<string>, prefix: string): Option<string> {
    match SmallestUndeclaredIndex(members, declared)
    case Some(key) => Some(NotAllowed(key, prefix))
    case None => FirstError(members, (kv: (string, Json)) => if kv.0 in declared then None else Some(NotAllowed(kv.0, prefix)))
  }

  predicate KeysDeclared(members: seq<(string, Json)>, declared: seq<string>) {
    forall i :: 0 <= i < |members| ==> members[i].0 in declared
  }

  lemma UnknownKeyErrorNone(members: seq<(string, Json)>, declared: seq<string>, prefix: string)
    ensures UnknownKeyError(members, declared, prefix).None? <==> KeysDeclared(members, declared)
  {
    FirstErrorNone(members, (kv: (string, Json)) => if kv.0 in declared then None else Some(NotAllowed(kv.0, prefix)));
  }

  /** The key reported is the one `Object.keys` lists first among the
      undeclared ones: an array index of least value when there is one, and
      otherwise the first undeclared key of the text (JSON.parse creates a
      repeated key where it first occurs). */
  lemma {:induction false} UnknownKeyOrder(members: seq<(string, Json)>, declared: seq<string>, prefix: string, i: nat)
    requires i < |members| && members[i].0 !in declared
    ensures IsArrayIndex(members[i].0) &&
            (forall j :: 0 <= j < |members| && UndeclaredIndex(members[j].0, declared) ==>
               DecimalValue(members[i].0) <= DecimalValue(members[j].0))
            ==> UnknownKeyError(members, declared, prefix) == Some(NotAllowed(members[i].0, prefix))
    ensures (forall j :: 0 <= j < |members| ==> !UndeclaredIndex(members[j].0, declared)) &&
            (forall j :: 0 <= j < i ==> members[j].0 in declared)
            ==> UnknownKeyError(members, declared, prefix) == Some(NotAllowed(members[i].0, prefix))
  {
    var k := SmallestUndeclaredIndex(members, declared);
    var check := (kv: (string, Json)) => if kv.0 in declared then None else Some(NotAllowed(kv.0, prefix));
    if IsArrayIndex(members[i].0) &&
       forall j :: 0 <= j < |members| && UndeclaredIndex(members[j].0, declared) ==>
         DecimalValue(members[i].0) <= DecimalValue(members[j].0)
    {
      assert UndeclaredIndex(members[i].0, declared);
      CanonicalDigitsEqual(k.value, members[i].0);
    } else if (forall j :: 0 <= j < |members| ==> !UndeclaredIndex(members[j].0, declared)) &&
              (forall j :: 0 <= j < i ==> members[j].0 in declared)
    {
      FirstErrorAt(members, check, i);
    }
  }

  /** A non-empty digit string without a leading zero writes a positive number. */
  lemma {:induction false} LeadingDigitPositive(s: string)
    requires |s| > 0 && AllDigits(s) && s[0] != '0'
    ensures DecimalValue(s) > 0
  {
    if |s| > 1 {
      LeadingDigitPositive(s[..|s| - 1]);
    }
  }

  /** Digit strings without leading zeros are determined by their value. */
  lemma {:induction false} NoLeadingZeroEqual(a: string, b: string)
    requires AllDigits(a) && AllDigits(b) && DecimalValue(a) == DecimalValue(b)
    requires (|a| == 0 || a[0] != '0') && (|b| == 0 || b[0] != '0')
    ensures a == b
  {
    if |a| == 0 || |b| == 0 {
      if |a| > 0 { LeadingDigitPositive(a); }
      if |b| > 0 { LeadingDigitPositive(b); }
    } else {
      var a', b' := a[..|a| - 1], b[..|b| - 1];
      assert DecimalValue(a) == 10 * DecimalValue(a') + DigitValue(a[|a| - 1]);
      assert DecimalValue(b) == 10 * DecimalValue(b') + DigitValue(b[|b| - 1]);
      assert DigitValue(a[|a| - 1]) == DigitValue(b[|b| - 1]);
      NoLeadingZeroEqual(a', b');
      assert a == a' + [a[|a| - 1]] && b == b' + [b[|b| - 1]];
    }
  }

  /** Two array indexes of the same value are the same text. */
  lemma CanonicalDigitsEqual(a: string, b: string)
    requires IsArrayIndex(a) && IsArrayIndex(b) && DecimalValue(a) == DecimalValue(b)
    ensures a == b
  {
    if a == "0" || b == "0" {
      if a != "0" { LeadingDigitPositive(a); }
      if b != "0" { LeadingDigitPositive(b); }
    } else {
      NoLeadingZeroEqual(a, b);
    }
  }

  /** When every declared key passes, the body's error is the unknown-key one. */
  lemma EntriesPassUnknownKeyReported(schema: seq<Entry>, members: seq<(string, Json)>)
    requires forall k :: 0 <= k < |schema| ==> EntryOk(schema[k], members)
    ensures BodyError(schema, JObject(members)) == UnknownKeyError(members, EntryNames(schema), "")
  {
    var check := (e: Entry) => EntryError(e, members);
    forall k | 0 <= k < |schema| ensures check(schema[k]).None? {
      EntryErrorNone(schema[k], members);
    }
    FirstErrorNone(schema, check);
  }

  lemma NotAllowedText(key: string)
    ensures NotAllowed(key, "") == "\"" + key + "\" is not allowed"
  {
    assert "" + key == key;
  }

  lemma ZeroNotAllowed()
    ensures NotAllowed("0", "") == "\"0\" is not allowed"
  {
    NotAllowedText("0");
  }

  /** Undeclared keys `b` and then `0`: `0` is reported, as `Object.keys`
      lists the array index first. */
  lemma IndexKeyBeforeNamedKey(members: seq<(string, Json)>)
    requires |members| == 4 && members[0].0 == "amount" && members[1].0 == "phoneNumber"
    requires members[2].0 == "b" && members[3].0 == "0"
    ensures UnknownKeyError(members, ["phoneNumber", "amount"], "") == Some("\"0\" is not allowed")
  {
    var declared := ["phoneNumber", "amount"];
    assert DecimalValue("0") == 0;
    assert !IsDigit('b');
    assert UndeclaredIndex(members[3].0, declared);
    assert forall j :: 0 <= j < |members| && UndeclaredIndex(members[j].0, declared) ==> j == 3;
    UnknownKeyOrder(members, declared, "", 3);
    ZeroNotAllowed();
  }

  /** The mobile initiate body with a valid phone and amount and the extra
      keys `b` and `0`, in that order, is refused for `0`. */
  lemma IndexKeyReportedFirst(phone: string)
    requires IsKenyanPhone(phone)
    ensures BodyError(MobileSchema, JObject([("amount", JNumber(1)), ("phoneNumber", JString(phone)),
                                             ("b", JNumber(1)), ("0", JNumber(1))]))
            == Some("\"0\" is not allowed")
  {
    var members := [("amount", JNumber(1)), ("phoneNumber", JString(phone)), ("b", JNumber(1)), ("0", JNumber(1))];
    LookupAt(members, 1, "phoneNumber");
    LookupAt(members, 0, "amount");
    assert EntryOk(MobileSchema[0], members);
    assert EntryOk(MobileSchema[1], members);
    EntriesPassUnknownKeyReported(MobileSchema, members);
    assert EntryNames(MobileSchema) == ["phoneNumber", "amount"];
    IndexKeyBeforeNamedKey(members);
  }

  function FieldNames(fields: seq<Field>): (names: seq<string>)
    ensures |names| == |fields| && forall i :: 0 <= i < |fields| ==> names[i] == fields[i].name
  {
    if |fields| == 0 then [] else [fields[0].name] + FieldNames(fields[1..])
  }

  /** A `Joi.object({...})` of plain fields, at path `prefix`. */
  function ObjectError(fields: seq<Field>, prefix: string, members: seq<(string, Json)>): Option<string> {
    OrElse(FirstError(fields, (f: Field) => FieldError(f, prefix, members)),
           UnknownKeyError(members, FieldNames(fields), prefix))
  }

  predicate ObjectOk(fields: seq<Field>, members: seq<(string, Json)>) {
    && (forall k :: 0 <= k < |fields| ==> FieldOk(fields[k], members))
    && KeysDeclared(members, FieldNames(fields))
  }

  lemma ObjectErrorNone(fields: seq<Field>, prefix: string, members: seq<(string, Json)>)
    ensures ObjectError(fields, prefix, members).None? <==> ObjectOk(fields, members)
  {
    var check := (f: Field) => FieldError(f, prefix, members);
    FirstErrorNone(fields, check);
    forall k | 0 <= k < |fields| ensures check(fields[k]).None? <==> FieldOk(fields[k], members) {
      FieldErrorNone(fields[k], prefix, members);
    }
    UnknownKeyErrorNone(members, FieldNames(fields), prefix);
  }

  // ---------------------------------------------------------------------
  // Schemas

  /** A top-level key: a plain field, or a nested object of plain fields. */
  datatype Entry = Plain(field: Field) | Nested(name: string, required: bool, fields: seq<Field>) {
    function Name(): string {
      match this
      case Plain(f) => f.name
      case Nested(n, _, _) => n
    }
  }

  function EntryError(e: Entry, members: seq<(string, Json)>): Option<string> {
    match e
    case Plain(f) => FieldError(f, "", members)
    case Nested(name, required, fields) =>
      match Lookup(members, name)
      case None => if required then Some(Label(name) + " is required") else None
      case Some(v) =>
        if v.JObject? then ObjectError(fields, name + ".", v.members)
        else Some(Label(name) + " must be of type object")
  }

  predicate EntryOk(e: Entry, members: seq<(string, Json)>) {
    match e
    case Plain(f) => FieldOk(f, members)
    case Nested(name, required, fields) =>
      match Lookup(members, name)
      case None => !required
      case Some(v) => v.JObject? && ObjectOk(fields, v.members)
  }

  lemma EntryErrorNone(e: Entry, members: seq<(string, Json)>)
    ensures EntryError(e, members).None? <==> EntryOk(e, members)
  {
    match e
    case Plain(f) => FieldErrorNone(f, "", members);
    case Nested(name, required, fields) =>
      match Lookup(members, name)
      case None =>
      case Some(v) =>
        if v.JObject? { ObjectErrorNone(fields, name + ".", v.members); }
  }

  function EntryNames(schema: seq<Entry>): (names: seq<string>)
    ensures |names| == |schema| && forall i :: 0 <= i < |schema| ==> names[i] == schema[i].Name()
  {
    if |schema| == 0 then [] else [schema[0].Name()] + EntryNames(schema[1..])
  }

  /** `schema.validate(body)` with the library's default `abortEarly`: the
      first error's message, or `None` when the body is accepted. */
  function BodyError(schema: seq<Entry>, body: Json): Option<string> {
    match body
    case JObject(members) =>
      OrElse(FirstError(schema, (e: Entry) => EntryError(e, members)),
             UnknownKeyError(members, EntryNames(schema), ""))
    case _ => Some(Label("value") + " must be of type object")
  }

  /** What an accepted body is: an object whose every declared key passes
      and which has no other key. */
  predicate Accepts(schema: seq<Entry>, body: Json) {
    && body.JObject?
    && (forall k :: 0 <= k < |schema| ==> EntryOk(schema[k], body.members))
    && KeysDeclared(body.members, EntryNames(schema))
  }

  lemma BodyErrorNone(schema: seq<Entry>, body: Json)
    ensures BodyError(schema, body).None? <==> Accepts(schema, body)
  {
    if body.JObject? {
      var check := (e: Entry) => EntryError(e, body.members);
      FirstErrorNone(schema, check);
      forall k | 0 <= k < |schema| ensures check(schema[k]).None? <==> EntryOk(schema[k], body.members) {
        EntryErrorNone(schema[k], body.members);
      }
      UnknownKeyErrorNone(body.members, EntryNames(schema), "");
    }
  }

  const AmountField := Field("amount", true, PositiveNumber)
  const CurrencyField := Field("currency", false, PlainString)
  const PhoneField := Field("phoneNumber", true, Matching(PhonePattern))

  /** `paypalSchema` */
  const PaypalSchema: seq<Entry> := [Plain(AmountField), Plain(CurrencyField)]

  /** `mpesaSchema` and `airtelSchema`, which are identical. */
  const MobileSchema: seq<Entry> := [Plain(PhoneField), Plain(AmountField)]

  const CardFields: seq<Field> := [
    Field("number", true, Matching(CardNumberPattern)),
    Field("expiry", true, Matching(ExpiryPattern)),
    Field("cvc", true, Matching(CvcPattern)),
    Field("name", true, PlainString)
  ]

  /** `cardSchema` */
  const CardSchema: seq<Entry> := [Nested("cardDetails", true, CardFields), Plain(AmountField), Plain(CurrencyField)]

  /** `mobileConfirmationSchema` */
  const ConfirmationSchema: seq<Entry> :=
    [Plain(Field("provider", true, OneOf(["mpesa", "airtel"]))), Plain(Field("transactionId", true, PlainString))]

  // ---------------------------------------------------------------------
  // What each schema accepts

  /** The member `key` is present and is a string satisfying `ok`. */
  predicate StringWith(members: seq<(string, Json)>, key: string, ok: string -> bool) {
    var v := Lookup(members, key);
    v.Some? && v.value.JString? && ok(v.value.str)
  }

  /** `amount` is present and is a number greater than 0. */
  predicate PositiveAmount(members: seq<(string, Json)>) {
    var v := Lookup(members, "amount");
    v.Some? && v.value.JNumber? && v.value.num > 0
  }

  /** `currency` is absent or a non-empty string. */
  predicate CurrencyOk(members: seq<(string, Json)>) {
    var v := Lookup(members, "currency");
    v.None? || (v.value.JString? && v.value.str != [])
  }

  predicate NonEmpty(s: string) { s != [] }

  lemma TwoEntriesOk(schema: seq<Entry>, members: seq<(string, Json)>)
    requires |schema| == 2
    ensures (forall k :: 0 <= k < |schema| ==> EntryOk(schema[k], members))
        <==> EntryOk(schema[0], members) && EntryOk(schema[1], members)
  {
  }

  lemma ThreeEntriesOk(schema: seq<Entry>, members: seq<(string, Json)>)
    requires |schema| == 3
    ensures (forall k :: 0 <= k < |schema| ==> EntryOk(schema[k], members))
        <==> EntryOk(schema[0], members) && EntryOk(schema[1], members) && EntryOk(schema[2], members)
  {
  }

  lemma FourFieldsOk(fields: seq<Field>, members: seq<(string, Json)>)
    requires |fields| == 4
    ensures (forall k :: 0 <= k < |fields| ==> FieldOk(fields[k], members))
        <==> FieldOk(fields[0], members) && FieldOk(fields[1], members)
             && FieldOk(fields[2], members) && FieldOk(fields[3], members)
  {
  }

  /** The M-Pesa and Airtel initiate bodies: a `254` phone number of 12
      digits, a positive amount, and nothing else. */
  lemma MobileSchemaAccepts(body: Json)
    ensures Accepts(MobileSchema, body) <==>
      && body.JObject?
      && StringWith(body.members, "phoneNumber", IsKenyanPhone)
      && PositiveAmount(body.members)
      && KeysDeclared(body.members, ["phoneNumber", "amount"])
  {
    assert EntryNames(MobileSchema) == ["phoneNumber", "amount"];
    if body.JObject? {
      assert FieldOk(PhoneField, body.members) <==> StringWith(body.members, "phoneNumber", IsKenyanPhone);
      TwoEntriesOk(MobileSchema, body.members);
    }
  }

  /** The PayPal body: a positive amount, an optional non-empty currency
      string, and nothing else. */
  lemma PaypalSchemaAccepts(body: Json)
    ensures Accepts(PaypalSchema, body) <==>
      && body.JObject?
      && PositiveAmount(body.members)
      && CurrencyOk(body.members)
      && KeysDeclared(body.members, ["amount", "currency"])
  {
    assert EntryNames(PaypalSchema) == ["amount", "currency"];
    if body.JObject? {
      TwoEntriesOk(PaypalSchema, body.members);
    }
  }

  /** The card details object: 16 digits, an `MM/YY` expiry with month 01
      to 12, a CVC of 3 or 4 digits, a non-empty name, and nothing else.
      Neither the Luhn test nor the calendar is consulted. */
  lemma CardFieldsAccept(members: seq<(string, Json)>)
    ensures ObjectOk(CardFields, members) <==>
      && StringWith(members, "number", IsSixteenDigits)
      && StringWith(members, "expiry", IsExpiryPattern)
      && StringWith(members, "cvc", IsCvc)
      && StringWith(members, "name", NonEmpty)
      && KeysDeclared(members, ["number", "expiry", "cvc", "name"])
  {
    assert FieldNames(CardFields) == ["number", "expiry", "cvc", "name"];
    FourFieldsOk(CardFields, members);
    CardFieldOk(members);
  }

  lemma RequiredStringField(name: string, p: Pattern, members: seq<(string, Json)>)
    ensures FieldOk(Field(name, true, Matching(p)), members)
        <==> (var v := Lookup(members, name); v.Some? && v.value.JString? && p.Matches(v.value.str))
  {
  }

  /** The four card fields one by one. */
  lemma CardFieldOk(members: seq<(string, Json)>)
    ensures FieldOk(CardFields[0], members) <==> StringWith(members, "number", IsSixteenDigits)
    ensures FieldOk(CardFields[1], members) <==> StringWith(members, "expiry", IsExpiryPattern)
    ensures FieldOk(CardFields[2], members) <==> StringWith(members, "cvc", IsCvc)
    ensures FieldOk(CardFields[3], members) <==> StringWith(members, "name", NonEmpty)
  {
    RequiredStringField("number", CardNumberPattern, members);
    RequiredStringField("expiry", ExpiryPattern, members);
    RequiredStringField("cvc", CvcPattern, members);
  }

  /** The card body: valid card details, a positive amount, an optional
      currency, and nothing else. */
  lemma CardSchemaAccepts(body: Json)
    ensures Accepts(CardSchema, body) <==>
      && body.JObject?
      && (var d := Lookup(body.members, "cardDetails"); d.Some? && d.value.JObject? && ObjectOk(CardFields, d.value.members))
      && PositiveAmount(body.members)
      && CurrencyOk(body.members)
      && KeysDeclared(body.members, ["cardDetails", "amount", "currency"])
  {
    assert EntryNames(CardSchema) == ["cardDetails", "amount", "currency"];
    if body.JObject? {
      ThreeEntriesOk(CardSchema, body.members);
    }
  }

  predicate IsProvider(s: string) { s == "mpesa" || s == "airtel" }

  /** The confirmation body: `provider` is 'mpesa' or 'airtel', a
      non-empty `transactionId` string, and nothing else. */
  lemma ConfirmationSchemaAccepts(body: Json)
    ensures Accepts(ConfirmationSchema, body) <==>
      && body.JObject?
      && StringWith(body.members, "provider", IsProvider)
      && StringWith(body.members, "transactionId", NonEmpty)
      && KeysDeclared(body.members, ["provider", "transactionId"])
  {
    assert EntryNames(ConfirmationSchema) == ["provider", "transactionId"];
    if body.JObject? {
      TwoEntriesOk(ConfirmationSchema, body.members);
      ConfirmationEntriesOk(body.members);
    }
  }

  /** The two confirmation entries one by one. */
  lemma ConfirmationEntriesOk(members: seq<(string, Json)>)
    ensures EntryOk(ConfirmationSchema[0], members) <==> StringWith(members, "provider", IsProvider)
    ensures EntryOk(ConfirmationSchema[1], members) <==> StringWith(members, "transactionId", NonEmpty)
  {
  }

  /** A phone number that is a non-empty string of the wrong shape is
      reported with the schema's own message, since it is the first key. */
  lemma MobilePhoneMessage(body: Json)
    requires body.JObject?
    requires StringWith(body.members, "phoneNumber", NonEmpty)
    requires !StringWith(body.members, "phoneNumber", IsKenyanPhone)
    ensures BodyError(MobileSchema, body) == Some("Phone number must be in the format 254XXXXXXXXX")
  {
    var check := (e: Entry) => EntryError(e, body.members);
    FirstErrorAt(MobileSchema, check, 0);
  }

  /** In a card body whose details object has a non-empty number that is not
      16 digits, that number is the error reported. */
  lemma CardNumberMessage(body: Json)
    requires body.JObject?
    requires var d := Lookup(body.members, "cardDetails");
      && d.Some? && d.value.JObject?
      && StringWith(d.value.members, "number", NonEmpty)
      && !StringWith(d.value.members, "number", IsSixteenDigits)
    ensures BodyError(CardSchema, body) == Some("Card number must be 16 digits")
  {
    var details := Lookup(body.members, "cardDetails").value.members;
    var fieldCheck := (f: Field) => FieldError(f, "cardDetails.", details);
    FirstErrorAt(CardFields, fieldCheck, 0);
    var check := (e: Entry) => EntryError(e, body.members);
    FirstErrorAt(CardSchema, check, 0);
  }

  // ---------------------------------------------------------------------
  // validateRequest

  /** What the middleware does: answer 400 with `{ success: false, error }`,
      or call `next()` with the request body it was given. */
  datatype Decision = Respond(status: int, success: bool, error: string) | Next(body: Json)

  /** `validateRequest(schema)(req, res, next)` */
  function ValidateRequest(schema: seq<Entry>, body: Json): (d: Decision)
    ensures d.Next? <==> Accepts(schema, body)
    ensures d.Next? ==> d.body == body
    ensures d.Respond? ==> d.status == 400 && !d.success && Some(d.error) == BodyError(schema, body)
  {
    BodyErrorNone(schema, body);
    match BodyError(schema, body)
    case Some(message) => Respond(400, false, message)
    case None => Next(body)
  }
}

=== FILE: phone.dfy ===
/** `formatPhoneNumber` of the M-Pesa and Airtel client services (the two
    are textually identical): normalise a Kenyan phone number toward the
    `254` country prefix that the server's phone pattern demands. */
module Phone {
  import opened Text

  const CountryCode: string := "254"

  /** `cleaned.startsWith('254')` */
  predicate HasCountryCode(s: string) {
    CountryCode <= s
  }

  /** Delete every non-digit; then a leading '0' becomes '254', a number
      without the '254' prefix gets it prepended, and one with it is kept. */
  function FormatPhoneNumber(phoneNumber: string): (r: string)
    ensures AllDigits(r) && HasCountryCode(r)
    ensures var c := KeepDigits(phoneNumber);
      && (|c| > 0 && c[0] == '0' ==> r == CountryCode + c[1..])
      && (!(|c| > 0 && c[0] == '0') && !HasCountryCode(c) ==> r == CountryCode + c)
      && (HasCountryCode(c) ==> r == c)
  {
    var cleaned := KeepDigits(phoneNumber);
    if |cleaned| > 0 && cleaned[0] == '0' then
      var r := CountryCode + cleaned[1..];
      assert AllDigits(r) by {
        forall i | 0 <= i < |r| ensures IsDigit(r[i]) {
          if i >= 3 { assert r[i] == cleaned[i - 2]; }
        }
      }
      r
    else if !HasCountryCode(cleaned) then
      var r := CountryCode + cleaned;
      assert AllDigits(r) by {
        forall i | 0 <= i < |r| ensures IsDigit(r[i]) {
          if i >= 3 { assert r[i] == cleaned[i - 3]; }
        }
      }
      r
    else cleaned
  }

  /** A number that is already formatted is left as it is, so formatting
      twice gives what formatting once gives. */
  lemma FormatIdempotent(phoneNumber: string)
    ensures FormatPhoneNumber(FormatPhoneNumber(phoneNumber)) == FormatPhoneNumber(phoneNumber)
  {
    var r := FormatPhoneNumber(phoneNumber);
    FilterKeepsAll(r, IsDigit);
    assert KeepDigits(r) == r;
    assert r[0] == '2';
  }

  /** The server's `^254[0-9]{9}$` */
  predicate IsKenyanPhone(s: string) {
    |s| == 12 && HasCountryCode(s) && AllDigits(s)
  }

  /** The formatted number has the server's shape exactly when the digits of
      the input are 0 and nine more, or nine digits that start with neither
      '0' nor '254', or 254 and nine more. */
  lemma FormatMatchesServerPattern(phoneNumber: string)
    ensures var c := KeepDigits(phoneNumber);
      IsKenyanPhone(FormatPhoneNumber(phoneNumber)) <==>
        || (|c| == 10 && c[0] == '0')
        || (|c| == 9 && c[0] != '0' && !HasCountryCode(c))
        || (|c| == 12 && HasCountryCode(c))
  {
  }

  /** The three spellings of one subscriber number: with the trunk 0
      (0712345678), bare (712345678) and international (254712345678) all
      format to the international form. */
  lemma ThreeSpellings(subscriber: string)
    requires |subscriber| == 9 && AllDigits(subscriber) && subscriber[0] != '0'
    requires !HasCountryCode(subscriber)
    ensures FormatPhoneNumber("0" + subscriber) == CountryCode + subscriber
    ensures FormatPhoneNumber(subscriber) == CountryCode + subscriber
    ensures FormatPhoneNumber(CountryCode + subscriber) == CountryCode + subscriber
  {
    var local := "0" + subscriber;
    assert AllDigits(local) by {
      forall i | 0 <= i < |local| ensures IsDigit(local[i]) {
        if i > 0 { assert local[i] == subscriber[i - 1]; }
      }
    }
    FilterKeepsAll(local, IsDigit);
    assert local[1..] == subscriber;
    FilterKeepsAll(subscriber, IsDigit);
    var full := CountryCode + subscriber;
    assert AllDigits(full) by {
      forall i | 0 <= i < |full| ensures IsDigit(full[i]) {
        if i >= 3 { assert full[i] == subscriber[i - 3]; }
      }
    }
    FilterKeepsAll(full, IsDigit);
    assert HasCountryCode(full);
  }
}

=== FILE: poller.dfy ===
/** The status polling of the payment form: an interval that checks the
    payment status every 5000 ms and is cleared by the first successful
    check, and a timeout that clears it at 120000 ms whatever happened.
    Time is the grid of interval ticks; the k-th tick (k >= 1) fires at
    5000 * k ms. Each check is taken to settle before the next tick, and
    `ok(k)` says whether the k-th check reports `success`. Whether the tick
    at 120000 ms fires before the timeout clears the interval is the
    parameter `tickWinsTie`. */
module Poller {

  const Interval: nat := 5000
  const Deadline: nat := 120000

  /** The number of ticks that fire before the timeout: 24 when the tick at
      the deadline runs first, 23 otherwise. */
  function TickCount(tickWinsTie: bool): (n: nat)
    ensures tickWinsTie ==> n * Interval == Deadline
    ensures !tickWinsTie ==> n * Interval < Deadline <= (n + 1) * Interval
  {
    if tickWinsTie then Deadline / Interval else Deadline / Interval - 1
  }

  /** The interval's state: whether it still runs, the times of the checks
      it issued, and whether one of them reported success. */
  datatype Poll = Poll(active: bool, checks: seq<nat>, success: bool)

  const Started := Poll(true, [], false)

  /** The k-th tick: a running interval issues a check, and a successful
      check clears the interval and sets success. A cleared interval does
      nothing. */
  function Tick(p: Poll, k: nat, ok: bool): Poll {
    if !p.active then p
    else Poll(!ok, p.checks + [k * Interval], p.success || ok)
  }

  /** The state after ticks 1..n. */
  function Ticks(ok: nat -> bool, n: nat): Poll {
    if n == 0 then Started else Tick(Ticks(ok, n - 1), n, ok(n))
  }

  /** The state once the timeout has cleared the interval. */
  function Polling(ok: nat -> bool, tickWinsTie: bool): (p: Poll)
    ensures !p.active
  {
    Ticks(ok, TickCount(tickWinsTie)).(active := false)
  }

  /** The first successful check among ticks 1..n, if any. */
  predicate SucceedsBy(ok: nat -> bool, n: nat) {
    exists k :: 1 <= k <= n && ok(k)
  }

  /** What n ticks leave: checks at 5000, 10000, ... ms, each one but the
      last having failed; the last succeeded exactly when success is set,
      which is exactly when some check among the n succeeded; otherwise a
      check was issued at every tick and the interval still runs. */
  lemma {:induction false} TicksState(ok: nat -> bool, n: nat)
    ensures var p := Ticks(ok, n);
      && |p.checks| <= n
      && (forall i :: 0 <= i < |p.checks| ==> p.checks[i] == (i + 1) * Interval)
      && (forall k :: 1 <= k < |p.checks| ==> !ok(k))
      && (p.success <==> |p.checks| > 0 && ok(|p.checks|))
      && (p.active <==> !p.success)
      && (!p.success ==> |p.checks| == n)
  {
    if n > 0 {
      TicksState(ok, n - 1);
    }
  }

  /** Success is set exactly when some check before the timeout succeeds. */
  lemma {:induction false} TicksSucceed(ok: nat -> bool, n: nat)
    ensures Ticks(ok, n).success <==> SucceedsBy(ok, n)
  {
    TicksState(ok, n);
    var p := Ticks(ok, n);
    if p.success {
      assert 1 <= |p.checks| <= n && ok(|p.checks|);
    } else if SucceedsBy(ok, n) {
      var k :| 1 <= k <= n && ok(k);
      assert false;
    }
  }

  /** The properties of the whole polling run: checks every 5000 ms, none
      at or after the deadline unless the tie goes to the tick, none after
      the first success, success exactly when some check succeeds, and no
      failure ends the polling early. */
  lemma PollingState(ok: nat -> bool, tickWinsTie: bool)
    ensures var p := Polling(ok, tickWinsTie);
      && (forall i :: 0 <= i < |p.checks| ==> p.checks[i] == (i + 1) * Interval)
      && (forall i :: 0 <= i < |p.checks| ==> p.checks[i] <= Deadline)
      && (!tickWinsTie ==> forall i :: 0 <= i < |p.checks| ==> p.checks[i] < Deadline)
      && (p.success <==> SucceedsBy(ok, TickCount(tickWinsTie)))
      && (p.success ==> ok(|p.checks|) && forall k :: 1 <= k < |p.checks| ==> !ok(k))
      && (!p.success ==> |p.checks| == TickCount(tickWinsTie))
  {
    var n := TickCount(tickWinsTie);
    TicksState(ok, n);
    TicksSucceed(ok, n);
    var p := Polling(ok, tickWinsTie);
    forall i | 0 <= i < |p.checks| ensures p.checks[i] <= Deadline && (!tickWinsTie ==> p.checks[i] < Deadline) {
      assert (i + 1) * Interval <= n * Interval;
    }
  }

  /** When no check ever succeeds, the polling issues all its checks and
      ends without success: a failing check does not stop it. */
  lemma FailuresKeepPolling(ok: nat -> bool, tickWinsTie: bool)
    requires forall k :: 1 <= k <= TickCount(tickWinsTie) ==> !ok(k)
    ensures !Polling(ok, tickWinsTie).success
    ensures |Polling(ok, tickWinsTie).checks| == TickCount(tickWinsTie)
  {
    PollingState(ok, tickWinsTie);
  }
}

=== FILE: server.dfy ===
/** The server's routing of a POST under `/api`: the route table, each
    route's schema middleware, and the catch-all 404 handler. What a route's
    controller answers is a parameter. */
module Server {
  import opened Common
  import opened PaymentValidation

  datatype Endpoint = PaypalProcess | MpesaInitiate | MpesaConfirm | AirtelInitiate | AirtelConfirm | CardProcess {
    function Path(): string {
      match this
      case PaypalProcess => "/paypal/process"
      case MpesaInitiate => "/mpesa/initiate"
      case MpesaConfirm => "/mpesa/confirm"
      case AirtelInitiate => "/airtel/initiate"
      case AirtelConfirm => "/airtel/confirm"
      case CardProcess => "/card/process"
    }

    /** The schema `validateRequest` checks before the controller runs. */
    function Schema(): seq<Entry> {
      match this
      case PaypalProcess => PaypalSchema
      case MpesaInitiate => MobileSchema
      case MpesaConfirm => ConfirmationSchema
      case AirtelInitiate => MobileSchema
      case AirtelConfirm => ConfirmationSchema
      case CardProcess => CardSchema
    }
  }

  /** The route registered for a path, if any. */
  function Route(path: string): (e: Option<Endpoint>)
    ensures e.Some? ==> e.value.Path() == path
    ensures e.None? ==> forall x: Endpoint :: x.Path() != path
  {
    if path == PaypalProcess.Path() then Some(PaypalProcess)
    else if path == MpesaInitiate.Path() then Some(MpesaInitiate)
    else if path == MpesaConfirm.Path() then Some(MpesaConfirm)
    else if path == AirtelInitiate.Path() then Some(AirtelInitiate)
    else if path == AirtelConfirm.Path() then Some(AirtelConfirm)
    else if path == CardProcess.Path() then Some(CardProcess)
    else None
  }

  /** What a client observes for a POST of `body` to `path`: 404 with
      'Route not found' for an unknown path, 400 with the first schema
      message for a rejected body, and otherwise the controller's answer. */
  function Serve(path: string, body: Json, handled: Reply<Json>): (r: Reply<Json>)
    ensures Route(path).None? ==> r == HttpError(Some("Route not found"))
    ensures Route(path).Some? && !Accepts(Route(path).value.Schema(), body)
            ==> r.HttpError? && r.errorField == BodyError(Route(path).value.Schema(), body)
    ensures Route(path).Some? && Accepts(Route(path).value.Schema(), body) ==> r == handled
  {
    match Route(path)
    case None => HttpError(Some("Route not found"))
    case Some(e) =>
      match ValidateRequest(e.Schema(), body)
      case Respond(_, _, message) => HttpError(Some(message))
      case Next(_) => handled
  }

  /** The card route checks bodies against the card schema. */
  lemma CardRouteSchema()
    ensures CardProcess.Schema() == CardSchema
  {
  }

  /** Every registered path routes to its own endpoint. */
  lemma RouteOfPath(e: Endpoint)
    ensures Route(e.Path()) == Some(e)
  {
  }

  /** A POST to a registered route answers with the controller's reply when
      the body passes the route's schema, and with 400 and the schema's
      first message otherwise. */
  lemma ServeOnRoute(e: Endpoint, body: Json, handled: Reply<Json>)
    ensures Serve(e.Path(), body, handled)
         == if Accepts(e.Schema(), body) then handled else HttpError(BodyError(e.Schema(), body))
  {
    RouteOfPath(e);
  }

  /** A body the route's schema refuses is answered with 400 and the
      schema's message, whatever the controller would have said. */
  lemma ServeRejects(e: Endpoint, schema: seq<Entry>, body: Json, handled: Reply<Json>, message: string)
    requires e.Schema() == schema && BodyError(schema, body) == Some(message)
    ensures Serve(e.Path(), body, handled) == HttpError(Some(message))
  {
    BodyErrorNone(schema, body);
    RouteOfPath(e);
  }
}

=== FILE: text.dfy ===
/** Character classes and string operations of JavaScript that the services
    rely on: the `\d`, `\D` and `\s` regular-expression classes, the global
    `replace(..., '')` deletions built on them, `trim`, `split`, `parseInt`
    and the UTF-16 `length` of a string. */
module Text {
  import opened Common

  /** `\d` and `[0-9]`: ASCII digits only. */
  predicate IsDigit(c: char) {
    '0' <= c <= '9'
  }

  predicate AllDigits(s: string) {
    forall i :: 0 <= i < |s| ==> IsDigit(s[i])
  }

  function DigitValue(c: char): (d: nat)
    requires IsDigit(c)
    ensures d < 10
  {
    (c as int) - ('0' as int)
  }

  /** Value of a string of decimal digits, most significant first. */
  function DecimalValue(s: string): (n: nat)
    requires AllDigits(s)
  {
    if |s| == 0 then 0 else 10 * DecimalValue(s[..|s| - 1]) + DigitValue(s[|s| - 1])
  }

  predicate IsHexDigit(c: char) {
    IsDigit(c) || 'a' <= c <= 'f' || 'A' <= c <= 'F'
  }

  function HexDigitValue(c: char): (d: nat)
    requires IsHexDigit(c)
    ensures d < 16
  {
    if IsDigit(c) then DigitValue(c)
    else if 'a' <= c <= 'f' then (c as int) - ('a' as int) + 10
    else (c as int) - ('A' as int) + 10
  }

  function HexValue(s: string): nat
    requires forall i :: 0 <= i < |s| ==> IsHexDigit(s[i])
  {
    if |s| == 0 then 0 else 16 * HexValue(s[..|s| - 1]) + HexDigitValue(s[|s| - 1])
  }

  /** `\s`: the WhiteSpace and LineTerminator code points of ECMAScript,
      which are also what `String.prototype.trim` removes. */
  predicate IsJsWhitespace(c: char) {
    || c == '\t' || c == '\n' || c == '\U{B}' || c == '\U{C}' || c == '\r'
    || c == ' ' || c == '\U{A0}' || c == '\U{1680}'
    || ('\U{2000}' <= c <= '\U{200A}')
    || c == '\U{2028}' || c == '\U{2029}' || c == '\U{202F}' || c == '\U{205F}'
    || c == '\U{3000}' || c == '\U{FEFF}'
  }

  /** `[\s-]`: the separators the card service ignores in a card number. */
  predicate IsSeparator(c: char) {
    IsJsWhitespace(c) || c == '-'
  }

  predicate NotWhitespace(c: char) { !IsJsWhitespace(c) }

  predicate NotSeparator(c: char) { !IsSeparator(c) }

  /** The characters of `s` that satisfy `keep`, in order: the model of
      `s.replace(/[^...]/g, '')`. */
  function Filter(s: string, keep: char -> bool): (r: string)
    ensures |r| <= |s|
    ensures forall i :: 0 <= i < |r| ==> keep(r[i])
  {
    if |s| == 0 then []
    else (if keep(s[0]) then [s[0]] else []) + Filter(s[1..], keep)
  }

  lemma {:induction false} FilterConcat(a: string, b: string, keep: char -> bool)
    ensures Filter(a + b, keep) == Filter(a, keep) + Filter(b, keep)
  {
    if |a| == 0 {
      assert a + b == b;
    } else {
      assert (a + b)[1..] == a[1..] + b;
      FilterConcat(a[1..], b, keep);
    }
  }

  /** A string whose every character is kept is left as it is. */
  lemma {:induction false} FilterKeepsAll(s: string, keep: char -> bool)
    requires forall i :: 0 <= i < |s| ==> keep(s[i])
    ensures Filter(s, keep) == s
  {
    if |s| > 0 {
      FilterKeepsAll(s[1..], keep);
    }
  }

  /** A character that is kept survives the deletion. */
  lemma FilterKeepsMember(s: string, keep: char -> bool, i: nat)
    requires i < |s| && keep(s[i])
    ensures s[i] in Filter(s, keep)
  {
    FilterConcat(s[..i], s[i..], keep);
    assert s[..i] + s[i..] == s;
    assert s[i..] == [s[i]] + s[i + 1..];
    FilterConcat([s[i]], s[i + 1..], keep);
    assert [s[i]][1..] == [];
  }

  /** `s.replace(/\s/g, '')` */
  function RemoveWhitespace(s: string): string {
    Filter(s, NotWhitespace)
  }

  /** `s.replace(/[\s-]/g, '')` */
  function RemoveSeparators(s: string): string {
    Filter(s, NotSeparator)
  }

  /** Deleting separators or white space leaves a string of digits as it is. */
  lemma DigitsUnchanged(s: string)
    requires AllDigits(s)
    ensures RemoveSeparators(s) == s
    ensures RemoveWhitespace(s) == s
  {
    forall i | 0 <= i < |s| ensures NotSeparator(s[i]) && NotWhitespace(s[i]) {
      assert IsDigit(s[i]);
    }
    FilterKeepsAll(s, NotSeparator);
    FilterKeepsAll(s, NotWhitespace);
  }

  /** `s.replace(/\D/g, '')` and `s.replace(/[^0-9]/g, '')` */
  function KeepDigits(s: string): (r: string)
    ensures AllDigits(r)
  {
    Filter(s, IsDigit)
  }

  /** `s.trimStart()` */
  function TrimStart(s: string): (r: string)
    ensures |r| <= |s|
  {
    if |s| > 0 && IsJsWhitespace(s[0]) then TrimStart(s[1..]) else s
  }

  /** `s.trimEnd()` */
  function TrimEnd(s: string): (r: string)
    ensures |r| <= |s|
  {
    if |s| > 0 && IsJsWhitespace(s[|s| - 1]) then TrimEnd(s[..|s| - 1]) else s
  }

  /** `s.trim()` */
  function Trim(s: string): string {
    TrimEnd(TrimStart(s))
  }

  /** `s.length`: JavaScript counts UTF-16 code units, so a character
      outside the Basic Multilingual Plane counts twice. */
  function JsLength(s: string): (n: nat)
    ensures |s| <= n <= 2 * |s|
  {
    if |s| == 0 then 0
    else JsLength(s[..|s| - 1]) + (if s[|s| - 1] as int >= 0x1_0000 then 2 else 1)
  }

  /** `s.split(sep)` for a one-character separator. */
  function Split(s: string, sep: char): (parts: seq<string>)
    ensures |parts| >= 1
  {
    if |s| == 0 then [[]]
    else
      var rest := Split(s[1..], sep);
      if s[0] == sep then [[]] + rest else [[s[0]] + rest[0]] + rest[1..]
  }

  lemma {:induction false} SplitNoSeparator(s: string, sep: char)
    requires forall i :: 0 <= i < |s| ==> s[i] != sep
    ensures Split(s, sep) == [s]
  {
    if |s| > 0 {
      SplitNoSeparator(s[1..], sep);
      assert [s[0]] + s[1..] == s;
    }
  }

  lemma {:induction false} SplitAtFirst(a: string, b: string, sep: char)
    requires forall i :: 0 <= i < |a| ==> a[i] != sep
    ensures Split(a + [sep] + b, sep) == [a] + Split(b, sep)
  {
    if |a| == 0 {
      assert a + [sep] + b == [sep] + b;
      assert ([sep] + b)[1..] == b;
    } else {
      assert (a + [sep] + b)[1..] == a[1..] + [sep] + b;
      SplitAtFirst(a[1..], b, sep);
      assert [a[0]] + a[1..] == a;
    }
  }

  /** The longest prefix of `s` whose characters all satisfy `p`. */
  function TakeWhile(s: string, p: char -> bool): (r: string)
    ensures r <= s
    ensures forall i :: 0 <= i < |r| ==> p(r[i])
  {
    if |s| > 0 && p(s[0]) then [s[0]] + TakeWhile(s[1..], p) else []
  }

  /** `parseInt(s)` with no radix argument, `None` standing for NaN: leading
      white space is skipped, one sign is read, a `0x`/`0X` prefix selects
      radix 16, and the longest run of digits of that radix is read. */
  function ParseInt(s: string): Option<int> {
    var t := TrimStart(s);
    var negative := |t| > 0 && t[0] == '-';
    var body := if |t| > 0 && (t[0] == '-' || t[0] == '+') then t[1..] else t;
    var magnitude := ParseMagnitude(body);
    if magnitude.None? then None
    else if negative then Some(-(magnitude.value as int))
    else Some(magnitude.value)
  }

  /** The unsigned part of `parseInt` with radix 0: a `0x`/`0X` prefix and
      the longest run of hex digits, or the longest run of decimal digits;
      `None` (NaN) when that run is empty. */
  function ParseMagnitude(body: string): Option<nat> {
    if |body| >= 2 && body[0] == '0' && (body[1] == 'x' || body[1] == 'X') then
      var digits := TakeWhile(body[2..], IsHexDigit);
      if |digits| == 0 then None else Some(HexValue(digits))
    else
      var digits := TakeWhile(body, IsDigit);
      if |digits| == 0 then None else Some(DecimalValue(digits))
  }


  lemma {:induction false} TakeWhileAll(s: string, p: char -> bool)
    requires forall i :: 0 <= i < |s| ==> p(s[i])
    ensures TakeWhile(s, p) == s
  {
    if |s| > 0 {
      TakeWhileAll(s[1..], p);
    }
  }

  /** On a non-empty string of digits `parseInt` yields its decimal value. */
  lemma ParseIntOfDigits(s: string)
    requires AllDigits(s) && |s| > 0
    ensures ParseInt(s) == Some(DecimalValue(s))
  {
    assert TrimStart(s) == s by { assert !IsJsWhitespace(s[0]); }
    assert s[0] != '-' && s[0] != '+';
    MagnitudeOfDigits(s);
  }

  lemma MagnitudeOfDigits(s: string)
    requires AllDigits(s) && |s| > 0
    ensures ParseMagnitude(s) == Some(DecimalValue(s))
  {
    assert !(|s| >= 2 && s[0] == '0' && (s[1] == 'x' || s[1] == 'X')) by {
      if |s| >= 2 { assert IsDigit(s[1]); }
    }
    TakeWhileAll(s, IsDigit);
  }


  /** A single character parses to a number exactly when it is a digit. */
  lemma ParseIntOfChar(c: char)
    ensures ParseInt([c]) == if IsDigit(c) then Some(DigitValue(c)) else None
  {
    if IsDigit(c) {
      ParseIntOfDigits([c]);
    }
  }
}

=== FILE: utf8.dfy ===
/** UTF-8 (RFC 3629, section 3), the encoding `Buffer.from(string)` applies
    to a JavaScript string before its bytes are Base64-encoded. A Dafny
    `char` is a Unicode scalar value, so a surrogate pair of the JavaScript
    string is one `char` here and encodes to four bytes, as in Node. */
module Utf8 {
  import opened Common

  /** The number of bytes RFC 3629 gives a scalar value. */
  function Width(c: char): (w: nat)
    ensures 1 <= w <= 4
  {
    var v := c as int;
    if v < 0x80 then 1 else if v < 0x800 then 2 else if v < 0x10000 then 3 else 4
  }

  /** The bytes of one scalar value: a lead byte carrying the width and the
      high bits, then six bits per continuation byte. */
  function EncodeChar(c: char): (b: seq<byte>)
    ensures |b| == Width(c)
    ensures Width(c) == 1 <==> b[0] < 0x80
    ensures forall i :: 1 <= i < |b| ==> IsContinuation(b[i])
  {
    var v := c as int;
    if v < 0x80 then [v]
    else if v < 0x800 then [0xC0 + v / 64, 0x80 + v % 64]
    else if v < 0x10000 then [0xE0 + v / 4096, 0x80 + (v / 64) % 64, 0x80 + v % 64]
    else [0xF0 + v / 262144, 0x80 + (v / 4096) % 64, 0x80 + (v / 64) % 64, 0x80 + v % 64]
  }

  function Encode(s: string): (b: seq<byte>)
    ensures |b| >= |s|
  {
    if |s| == 0 then [] else EncodeChar(s[0]) + Encode(s[1..])
  }

  predicate IsContinuation(b: byte) {
    0x80 <= b < 0xC0
  }

  /** A value is a scalar value, so a `char`, when it is below 0x110000 and
      outside the surrogate range. */
  predicate IsScalar(v: int) {
    0 <= v < 0xD800 || 0xE000 <= v < 0x110000
  }

  /** The width a lead byte announces, or `None` for a byte that cannot lead. */
  function LeadWidth(b: byte): Option<nat> {
    if b < 0x80 then Some(1)
    else if b < 0xC0 then None
    else if b < 0xE0 then Some(2)
    else if b < 0xF0 then Some(3)
    else if b < 0xF8 then Some(4)
    else None
  }

  /** The value of a lead byte and `w - 1` continuation bytes. */
  function SequenceValue(b: seq<byte>, w: nat): int
    requires 1 <= w <= 4 && |b| >= w
  {
    var b0, b1, b2, b3 := b[0] as int, if w > 1 then b[1] as int else 0,
                          if w > 2 then b[2] as int else 0, if w > 3 then b[3] as int else 0;
    if w == 1 then b0
    else if w == 2 then (b0 - 0xC0) * 64 + (b1 - 0x80)
    else if w == 3 then (b0 - 0xE0) * 4096 + (b1 - 0x80) * 64 + (b2 - 0x80)
    else (b0 - 0xF0) * 262144 + (b1 - 0x80) * 4096 + (b2 - 0x80) * 64 + (b3 - 0x80)
  }

  /** The smallest value each width may carry: a longer sequence for a
      smaller value is an overlong form, which RFC 3629 forbids. */
  function MinValue(w: nat): int {
    if w == 1 then 0 else if w == 2 then 0x80 else if w == 3 then 0x800 else 0x10000
  }

  /** The first scalar value of `b` and its width, if `b` starts with a
      well-formed sequence. */
  function DecodeFirst(b: seq<byte>): (r: Option<(char, nat)>)
    requires |b| > 0
    ensures r.Some? ==> 1 <= r.value.1 <= |b|
  {
    match LeadWidth(b[0])
    case None => None
    case Some(w) =>
      if |b| < w then None
      else if exists i :: 1 <= i < w && !IsContinuation(b[i]) then None
      else
        var v := SequenceValue(b, w);
        if v < MinValue(w) || !IsScalar(v) then None
        else Some((v as char, w))
  }

  /** Decoding: `None` for any ill-formed byte sequence. */
  function Decode(b: seq<byte>): (r: Option<string>)
    decreases |b|
  {
    if |b| == 0 then Some([])
    else
      match DecodeFirst(b)
      case None => None
      case Some((c, w)) =>
        match Decode(b[w..])
        case None => None
        case Some(rest) => Some([c] + rest)
  }

  /** The bytes of one scalar value carry it back. */
  lemma ValueOfEncoded(c: char)
    ensures SequenceValue(EncodeChar(c), Width(c)) == c as int
    ensures LeadWidth(EncodeChar(c)[0]) == Some(Width(c))
  {
    var v := c as int;
    if 0x80 <= v < 0x800 {
      TwoBytes(v);
    } else if 0x800 <= v < 0x10000 {
      ThreeBytes(v);
    } else if 0x10000 <= v {
      FourBytes(v);
    }
  }

  lemma TwoBytes(v: int)
    requires 0x80 <= v < 0x800
    ensures 0xC0 <= 0xC0 + v / 64 < 0xE0
    ensures (v / 64) * 64 + v % 64 == v
  {
  }

  lemma ThreeBytes(v: int)
    requires 0x800 <= v < 0x10000
    ensures 0xE0 <= 0xE0 + v / 4096 < 0xF0
    ensures (v / 4096) * 4096 + ((v / 64) % 64) * 64 + v % 64 == v
  {
    LowTwelve(v);
  }

  lemma FourBytes(v: int)
    requires 0x10000 <= v < 0x110000
    ensures 0xF0 <= 0xF0 + v / 262144 < 0xF8
    ensures (v / 262144) * 262144 + ((v / 4096) % 64) * 4096 + ((v / 64) % 64) * 64 + v % 64 == v
  {
    LowTwelve(v);
    LowEighteen(v);
  }

  /** The low twelve bits are two groups of six. */
  lemma LowTwelve(v: int)
    requires v >= 0
    ensures (v / 64) % 64 * 64 + v % 64 == v % 4096
  {
    var q := v / 64;
    assert v == 4096 * (q / 64) + ((q % 64) * 64 + v % 64);
  }

  /** The low eighteen bits are a group of six above the low twelve. */
  lemma LowEighteen(v: int)
    requires v >= 0
    ensures (v / 4096) % 64 * 4096 + v % 4096 == v % 262144
  {
    var q := v / 4096;
    assert v == 262144 * (q / 64) + ((q % 64) * 4096 + v % 4096);
  }


  /** Whatever follows it, an encoded scalar value is decoded first, with
      its width. */
  lemma DecodeFirstOfEncoded(c: char, rest: seq<byte>)
    ensures DecodeFirst(EncodeChar(c) + rest) == Some((c, Width(c)))
  {
    var e := EncodeChar(c);
    var b := e + rest;
    ValueOfEncoded(c);
    assert b[..Width(c)] == e;
    assert SequenceValue(b, Width(c)) == SequenceValue(e, Width(c));
    assert forall i :: 1 <= i < Width(c) ==> IsContinuation(b[i]) by {
      forall i | 1 <= i < Width(c) ensures IsContinuation(b[i]) {
        assert b[i] == e[i];
      }
    }
  }

  lemma {:induction false} EncodeConcat(a: string, b: string)
    ensures Encode(a + b) == Encode(a) + Encode(b)
  {
    if |a| == 0 {
      assert a + b == b;
    } else {
      assert (a + b)[1..] == a[1..] + b;
      EncodeConcat(a[1..], b);
    }
  }

  /** Decoding undoes encoding, so the encoding is injective. */
  lemma {:induction false} DecodeEncode(s: string)
    ensures Decode(Encode(s)) == Some(s)
  {
    if |s| > 0 {
      var e := EncodeChar(s[0]);
      DecodeFirstOfEncoded(s[0], Encode(s[1..]));
      assert (e + Encode(s[1..]))[|e|..] == Encode(s[1..]);
      DecodeEncode(s[1..]);
      assert [s[0]] + s[1..] == s;
    }
  }

  predicate IsAscii(s: string) {
    forall i :: 0 <= i < |s| ==> s[i] as int < 0x80
  }

  /** An ASCII string encodes to its own code points, one byte each. */
  lemma {:induction false} AsciiEncoding(s: string)
    requires IsAscii(s)
    ensures |Encode(s)| == |s|
    ensures forall i :: 0 <= i < |s| ==> Encode(s)[i] == s[i] as int
  {
    if |s| > 0 {
      assert IsAscii(s[1..]) by {
        forall i | 0 <= i < |s| - 1 ensures s[1..][i] as int < 0x80 {
          assert s[1..][i] == s[i + 1];
        }
      }
      AsciiEncoding(s[1..]);
      assert s[0] as int < 0x80;
    }
  }
}
